=== FILE: README.md ===
# Pipelines-as-Code concurrency queues in Dafny

This project models the queue manager of Pipelines-as-Code (`pkg/sync/queue_manager.go`).
The queue manager limits how many PipelineRuns of one Repository may run at a time.
It keeps a registry that maps each repository key (`namespace/name`) to a semaphore.
A semaphore holds:

- a waiting queue of runs, ordered by creation time;
- a set of running runs;
- the repository's concurrency limit.

The manager offers these operations:

- `AddToQueue` enqueues a run and tries to admit it.
- `RemoveFromQueue` releases a finished run and promotes the next waiting one.
- `InitQueues` rebuilds the queues from the runs the cluster lists as "queued" and "started".
- `RemoveRepository` forgets a repository.
- `QueuedPipelineRuns` and `RunningPipelineRuns` report the waiting and running runs.

The model is layered like the program:

- `Keys` (keys.dfy) holds the Repository and PipelineRun fields the manager reads.
  - It also holds `repoKey` and `getQueueKey`.
  - It defines a splitting function, the inverse of those keys.
- `Admission` (admission.dfy) holds one semaphore's state as a value (`SemState`).
  - Every semaphore operation the manager calls is a function of that state.
  - `Wf` is the semaphore invariant: the queue is ordered by creation time, with equal times in key order. No key waits twice, and no key is both waiting and running.
- `Registry` (registry.dfy) holds the registry as a value, a map from repository key to `SemState`.
  - `getSemaphore`, `checkAndUpdateSemaphoreSize`, `AddToQueue`, `RemoveFromQueue` and `RemoveRepository` are functions of that map.
  - Lemmas state what each operation promises.
- `Recovery` (recovery.dfy) models `InitQueues` as folds over the listed repositories and their runs.
  - It proves what a successful rebuild gives, for listed repositories with distinct keys and no entries yet. Each repository with queueing enabled and some listed run gets exactly the rebuilt semaphore. Repositories without runs or with queueing disabled get no entry.
  - It proves that any listing error aborts the rebuild, and that a failed run listing is returned as the error.
- `Sync` (sync.dfy) is the program's own shape: the classes `Semaphore` and `QueueManager`.
  - `QueueManager` keeps a `queueMap` of semaphore objects that its methods update in place.
  - Each method is proved to leave exactly the state that the matching `Admission`, `Registry` or `Recovery` function computes.
  - The two nested loops of `InitQueues` are `while` loops with invariants.
  - Each loop body is a small method (`RebuildRepo`, `EnqueueRun`, `StartRun`), called from `InitQueues`, `AddQueuedRuns` and `AddStartedRuns`.

The cluster is an input. `InitQueues` receives the result of listing the repositories: either an error, or one `RepoListing` per repository. A `RepoListing` holds the results of listing that repository's queued and started runs, each of which may be an error.

The semaphore's own implementation is not part of this model.
The behaviour below is this model's own choice, made to fit how the manager calls the semaphore:

- `addToQueue` inserts by creation time, with equal times in key order. It does nothing for a run that is already waiting or running.
- `tryAcquire` admits only the head of the queue, and only while fewer runs are running than the limit. Otherwise it reports why: "waiting for earlier run" or "at capacity".
- A run that is already running is not in the queue, so adding it again leaves it running but is reported as not admitted, with "waiting for earlier run".
- `acquireLatest` promotes the head when there is room.
- `acquire` marks a run running unconditionally and takes it out of the queue.
- `release` and `removeFromQueue` are no-ops for an absent run.
- `resize` refuses a limit below the number of running runs.

## Model

| member | source | states |
|---|---|---|
| Keys.NamespacedKey | pkg/sync/queue_manager.go:52-54 | the key is the namespace, then '/', then the name |
| Keys.SplitKey | pkg/sync/queue_manager.go:52-54 | a key that splits yields a slash-free namespace and a name that rebuild exactly that key |
| Keys.SplitKeyFindsSlash | pkg/sync/queue_manager.go:52-54 | a key splits exactly when it contains a '/' |
| Keys.SplitJoin | pkg/sync/queue_manager.go:52-54 | splitting the key of a slash-free namespace and a name gives back both (round trip) |
| Keys.KeyInjective | pkg/sync/queue_manager.go:52-54 | two slash-free namespace/name pairs give the same key exactly when they are equal |
| Keys.RepoKeySplits | pkg/sync/queue_manager.go:52-54 | a repository key splits back into the repository's namespace and name |
| Keys.QueueKeySplits | pkg/sync/queue_manager.go:116-118 | a queue key splits back into the run's namespace and name |
| Keys.RepoAndQueueKeysAgree | pkg/sync/queue_manager.go:116-118 | a repository and a run get the same key exactly when they share namespace and name |
| Keys.RepoKey | pkg/sync/queue_manager.go:52-54 | the repository key is its namespace, then '/', then its name |
| Keys.QueueKey | pkg/sync/queue_manager.go:116-118 | the queue key is the run's namespace, then '/', then its name |
| Admission.NewSemaphore | pkg/sync/queue_manager.go:47 | a new semaphore carries the given limit, has nothing waiting or running, and keeps the invariant |
| Admission.Pending | pkg/sync/queue_manager.go:193 | the waiting keys are the queue's keys, one per entry, in queue order |
| Admission.Insert | pkg/sync/queue_manager.go:80 | insertion adds exactly the new entry to the queue |
| Admission.InsertEntries | pkg/sync/queue_manager.go:80 | insertion adds exactly the inserted entry and keeps every other one |
| Admission.InsertPending | pkg/sync/queue_manager.go:80 | insertion adds exactly the new key to the waiting keys |
| Admission.InsertSorted | pkg/sync/queue_manager.go:80 | insertion keeps the queue ordered by creation time, then key |
| Admission.InsertDistinct | pkg/sync/queue_manager.go:80 | inserting a key that is not waiting keeps the waiting keys distinct |
| Admission.InsertCommutes | pkg/sync/queue_manager.go:154 | the queue does not depend on the order in which two entries were inserted |
| Admission.Enqueue | pkg/sync/queue_manager.go:80 | the run is waiting or running afterwards; a new run joins the queue as exactly one entry with its creation time, every other entry kept and no other entry added; only its key is added, and only if it was not running; a run already present changes nothing; limit and running set are kept; the invariant is preserved |
| Admission.EnqueueCommutes | pkg/sync/queue_manager.go:154 | enqueueing two different runs gives the same semaphore in either order |
| Admission.TryAcquire | pkg/sync/queue_manager.go:84 | admits exactly when the run heads the queue and fewer runs are running than the limit; then it moves the head to running with an empty message; otherwise nothing changes and a reason is given ("waiting for earlier run" when not at the head); it keeps the invariant and the limit bound, and the admitted run came no later than any run still waiting |
| Admission.AcquireLatest | pkg/sync/queue_manager.go:109 | when there is room and a run waiting, the head moves to running and its key is returned; otherwise nothing changes and "" is returned; it keeps the invariant and the limit bound |
| Admission.Acquire | pkg/sync/queue_manager.go:172 | the run is running whatever the limit; exactly its entries leave the queue and every other entry stays, with its time; it keeps the invariant |
| Admission.Release | pkg/sync/queue_manager.go:105 | the run leaves the running set and nothing else changes; it is a no-op for a run that is not running |
| Admission.RemoveFromQueue | pkg/sync/queue_manager.go:106 | exactly the run's entries leave the queue and every other entry stays, with its time; it is a no-op for a run that is not waiting; it keeps the invariant |
| Admission.RemoveKeyPending | pkg/sync/queue_manager.go:106 | removal takes exactly the removed key out of the waiting keys |
| Admission.RemoveKeyEntries | pkg/sync/queue_manager.go:106 | removal keeps exactly the entries of the other keys |
| Admission.RemoveKeyHead | pkg/sync/queue_manager.go:106 | with distinct keys, removal keeps the head unless it is the removed key, and then drops exactly the head |
| Admission.RemoveKeySorted | pkg/sync/queue_manager.go:106 | removal keeps the queue order |
| Admission.Resize | pkg/sync/queue_manager.go:59 | the resize succeeds exactly when the new limit is at least the number of running runs; a refused resize keeps the old limit; no run is evicted |
| Registry.CheckAndUpdateSize | pkg/sync/queue_manager.go:56-65 | the check succeeds exactly when the limit is unchanged or the resize succeeds; the semaphore then has the configured limit, and otherwise it is untouched |
| Registry.GetSemaphore | pkg/sync/queue_manager.go:36-50 | an error leaves the registry as it was and is the resize error; on success the repository has an entry with the configured limit, an existing entry keeps its runs, and only that key may be added |
| Registry.GetSemaphoreOutcome | pkg/sync/queue_manager.go:36-50 | fails exactly when an existing semaphore's changed limit cannot be applied, and then changes nothing; otherwise the repository has an entry with the configured limit (a new empty one if it had none, its runs kept if it had one) and no other entry changes; the invariant is preserved |
| Registry.GetSemaphoreStores | pkg/sync/queue_manager.go:39-49 | a successful call stores the resolved semaphore under the repository key and nothing else; a failed one leaves the registry as it was |
| Registry.RemoveRepository | pkg/sync/queue_manager.go:179-185 | exactly the repository's key is removed and every other entry is unchanged; removing an absent key is a no-op |
| Registry.AddToQueue | pkg/sync/queue_manager.go:70-89 | an error returns (false, "", error) with the registry unchanged; on success the run is waiting or running in its repository's semaphore |
| Registry.AddToQueueFails | pkg/sync/queue_manager.go:74-77 | AddToQueue fails exactly when the resize is refused, and then returns (false, "", error) with the registry unchanged |
| Registry.EnqueueThenTry | pkg/sync/queue_manager.go:79-84 | after enqueueing and trying to admit a run, the run is waiting or running; an admitted run is running, not waiting, with an empty message; a run that was not admitted gets a reason; every other running run keeps running and no other run starts; every other waiting entry stays and no entry but the run's joins |
| Registry.AddToQueueEnqueues | pkg/sync/queue_manager.go:74-88 | on success the repository's semaphore carries the configured limit; the run is waiting or running; it is admitted exactly when, once enqueued, it heads the queue and fewer runs are running than the limit; an admitted run is running and not waiting with an empty message, and a run left waiting gets a reason; the repository's other runs keep running or waiting with their times, and no run but this one joins either set; no other entry changes; the invariant is preserved |
| Registry.AddToQueueKeepsLimit | pkg/sync/queue_manager.go:84-88 | admission never takes a repository over its limit |
| Registry.RemoveFromQueue | pkg/sync/queue_manager.go:94-114 | an unknown repository gives "" and no change; the registry keeps its keys; a returned key is running in the repository's semaphore |
| Registry.RemoveFromQueueUnknown | pkg/sync/queue_manager.go:98-102 | for a repository without a semaphore, the result is "" and the registry is unchanged |
| Registry.ReleaseThenPromote | pkg/sync/queue_manager.go:104-113 | on one semaphore: the run ends neither running nor waiting; every other running run keeps running; at most the returned run is added to running, only when a slot was free; every other waiting run keeps waiting; the returned run was on top of the queue, or second behind the removed run |
| Registry.PromotesTop | pkg/sync/queue_manager.go:91-113 | after the run is released and removed from the waiting queue, the promoted run is the top of the old waiting queue, or the second entry when the released run was on top |
| Registry.RemoveFromQueueFrame | pkg/sync/queue_manager.go:98-106 | for a known repository the registry keeps its keys and every other entry, and stays valid |
| Registry.RemoveFromQueueReleases | pkg/sync/queue_manager.go:91-113 | for a known repository the run ends neither running nor waiting; every other running run keeps running; at most one run, the one returned, is promoted, only when a slot is free; it is the top of the waiting queue, or the second entry when the removed run was on top; the limit is unchanged |
| Registry.RemoveFromQueueNothingPromoted | pkg/sync/queue_manager.go:109-113 | "" is returned exactly when no slot is free or no other run is waiting |
| Recovery.EnqueueRun | pkg/sync/queue_manager.go:147-154 | one queued run: an error is the resize error with the registry unchanged; on success the run is waiting or running, the entry's runs are kept, and only the repository's key may be added |
| Recovery.AddQueued | pkg/sync/queue_manager.go:146-155 | the queued-runs loop fails only with the resize error, and adds at most the repository's key |
| Recovery.StartRun | pkg/sync/queue_manager.go:167-172 | one started run: an error is the resize error with the registry unchanged; on success the run is running, the entry's running runs are kept, and only the repository's key may be added |
| Recovery.AddStarted | pkg/sync/queue_manager.go:166-173 | the started-runs loop fails only with the resize error, and adds at most the repository's key |
| Recovery.RebuildRepo | pkg/sync/queue_manager.go:131-174 | a repository with queueing disabled changes nothing; otherwise at most its key is added; an error is the resize error or the failed listing's own error |
| Recovery.RebuildRepos | pkg/sync/queue_manager.go:131-174 | the loop over repositories removes no entry, and changes nothing when no repository has queueing enabled |
| Recovery.InitQueues | pkg/sync/queue_manager.go:122-177 | a failed repository listing is returned with the registry unchanged; no entry is ever removed |
| Recovery.EnqueueAllWaits | pkg/sync/queue_manager.go:146-155 | after the queued runs are enqueued, exactly the earlier waiting runs and the listed runs that are not running are waiting; the invariant is preserved |
| Recovery.EnqueueAllSwap | pkg/sync/queue_manager.go:146-155 | the order in which the queued runs are listed does not change the rebuilt queue |
| Recovery.AcquireAllRuns | pkg/sync/queue_manager.go:166-173 | after the started runs are acquired, every listed run is running and no longer waiting; the invariant is preserved |
| Recovery.GetSemaphoreConfigured | pkg/sync/queue_manager.go:148-151 | inside the rebuild loops, getSemaphore never fails and adds at most the repository's entry |
| Recovery.AddQueuedFolds | pkg/sync/queue_manager.go:146-155 | the queued-runs loop creates or updates the repository's entry only when some run is listed, and then holds every listed run enqueued |
| Recovery.AddStartedFolds | pkg/sync/queue_manager.go:166-173 | the started-runs loop creates or updates the repository's entry only when some run is listed, and then holds every listed run acquired |
| Recovery.RebuiltRestores | pkg/sync/queue_manager.go:137-173 | a rebuilt semaphore has the repository's limit; all started runs are running; exactly the queued runs that are not started are waiting |
| Recovery.RebuildRepoFresh | pkg/sync/queue_manager.go:131-174 | one repository with successful listings gets the rebuilt semaphore, and gets an entry only if some run is listed |
| Recovery.RebuiltFromSkip | pkg/sync/queue_manager.go:133-135 | a repository with no limit, or limit 0, is skipped and leaves the registry as it is |
| Recovery.InitQueuesRebuilds | pkg/sync/queue_manager.go:122-177 | when every listing succeeds on a fresh registry, the rebuild does not fail and keeps existing entries; each enabled repository has an entry exactly when it has runs, holding the rebuilt semaphore; there are no other new entries |
| Recovery.InitQueuesAborts | pkg/sync/queue_manager.go:124-164 | a failed repository listing is returned with the registry untouched; a rebuild without error had every run listing of every enabled repository succeed |
| Recovery.InitQueuesReportsListingError | pkg/sync/queue_manager.go:137-164 | the first enabled repository whose queued listing fails, or whose started listing fails after its queued one succeeded, aborts InitQueues with that listing's own error |
| Recovery.AddQueuedStops | pkg/sync/queue_manager.go:148-151 | once the queued-runs loop fails, later runs change nothing |
| Recovery.AddStartedStops | pkg/sync/queue_manager.go:168-171 | once the started-runs loop fails, later runs change nothing |
| Recovery.RebuildReposStops | pkg/sync/queue_manager.go:142-164 | once a repository fails, later repositories change nothing |
| Sync.Semaphore.constructor | pkg/sync/queue_manager.go:47 | a new semaphore object holds the new semaphore state |
| Sync.Semaphore.GetLimit | pkg/sync/queue_manager.go:58 | returns the current limit |
| Sync.Semaphore.GetCurrentPending | pkg/sync/queue_manager.go:193 | returns the waiting keys in queue order |
| Sync.Semaphore.GetCurrentRunning | pkg/sync/queue_manager.go:204 | returns the running keys |
| Sync.Semaphore.AddToQueue | pkg/sync/queue_manager.go:80 | the new state is the enqueue of the old one, and the invariant holds |
| Sync.Semaphore.TryAcquire | pkg/sync/queue_manager.go:84 | the new state and the (acquired, msg) result are those of the admission attempt on the old state |
| Sync.Semaphore.AcquireLatest | pkg/sync/queue_manager.go:109 | the new state and the returned key are those of promoting the head of the old state |
| Sync.Semaphore.Acquire | pkg/sync/queue_manager.go:172 | the new state is the old one with the run marked running |
| Sync.Semaphore.Release | pkg/sync/queue_manager.go:105 | the new state is the old one with the run released |
| Sync.Semaphore.RemoveFromQueue | pkg/sync/queue_manager.go:106 | the new state is the old one with the run removed from the waiting queue |
| Sync.Semaphore.Resize | pkg/sync/queue_manager.go:59 | the new state and the result are those of the resize on the old state |
| Sync.QueueManager.constructor | pkg/sync/queue_manager.go:24-30 | a new manager has an empty registry |
| Sync.QueueManager.CheckAndUpdateSemaphoreSize | pkg/sync/queue_manager.go:56-65 | the semaphore is resized as the size check computes, and "failed to resize semaphore" is returned exactly when it refuses |
| Sync.QueueManager.GetSemaphore | pkg/sync/queue_manager.go:36-50 | the registry and the error are those of getSemaphore on the old registry; on success the returned object is the one registered under the repository key; on error none is returned |
| Sync.QueueManager.AddToQueue | pkg/sync/queue_manager.go:70-89 | the registry and (acquired, msg, err) are those of AddToQueue on the old registry |
| Sync.QueueManager.RemoveFromQueue | pkg/sync/queue_manager.go:94-114 | the registry and the promoted key are those of RemoveFromQueue on the old registry |
| Sync.QueueManager.EnqueueRun | pkg/sync/queue_manager.go:147-154 | one iteration of the queued-runs loop, as the fold's step computes it |
| Sync.QueueManager.StartRun | pkg/sync/queue_manager.go:167-172 | one iteration of the started-runs loop, as the fold's step computes it |
| Sync.QueueManager.AddQueuedRuns | pkg/sync/queue_manager.go:146-155 | the queued-runs loop leaves the registry and error that the queued-runs fold computes |
| Sync.QueueManager.AddStartedRuns | pkg/sync/queue_manager.go:166-173 | the started-runs loop leaves the registry and error that the started-runs fold computes |
| Sync.QueueManager.RebuildRepo | pkg/sync/queue_manager.go:131-174 | one iteration of the loop over repositories leaves the registry and error that the rebuild step computes |
| Sync.QueueManager.InitQueues | pkg/sync/queue_manager.go:122-177 | the registry and the error are those of the InitQueues fold on the old registry |
| Sync.QueueManager.RemoveRepository | pkg/sync/queue_manager.go:179-185 | the registry is the old one without the repository's entry |
| Sync.QueueManager.QueuedPipelineRuns | pkg/sync/queue_manager.go:187-196 | returns the repository's waiting keys in queue order, or none for an unknown repository; no key appears twice and none is running |
| Sync.QueueManager.RunningPipelineRuns | pkg/sync/queue_manager.go:198-207 | returns the repository's running keys, or none for an unknown repository; none of them is waiting |

## Left out

- The mutex is not modelled. `AddToQueue`, `RemoveFromQueue`, `RemoveRepository` and the two snapshot methods take it (for example `pkg/sync/queue_manager.go:71-72`), and each of them is one atomic step here.
- `InitQueues` (lines 122-177) takes no lock, so in the program it can interleave with the other calls. The model assumes that `InitQueues` runs to completion before any other call, as at startup.
- The logger calls are not modelled; they change no state. This includes line 110, which logs the removed run's key where the promoted key is evidently meant.
- The Tekton and Pipelines-as-Code clients, the context and the label selectors of `InitQueues` are not modelled.
  - The listings are an input: a `Result` of repositories, each with a `Result` of its queued runs and one of its started runs.
  - The label selectors are assumed to select the "queued" and "started" runs.
- `time.Time` is not modelled; a creation time is an `int`.
- A missing `ConcurrencyLimit` would be a nil dereference at lines 47 and 57. It is a precondition (`concurrencyLimit.Some?`) of getSemaphore, AddToQueue and the `InitQueues` loops; `InitQueues` checks it at line 133 before use.
- The semaphore's implementation (`newSemaphore` and the `Semaphore` interface) is not part of this model. The behaviour stated for it above is this model's own choice.
- Keys.SplitJoin: the round trip needs a namespace without '/'. Kubernetes namespaces are DNS labels, so this always holds for real objects.
- Sync.QueueManager.RunningPipelineRuns: returns a set, because the program's slice order carries no meaning. The order of that slice is not modelled.
- Sync.QueueManager.GetSemaphore: returns `null` with the error where the program returns a nil interface.
- Recovery.InitQueuesRebuilds: stated only for a registry without entries for the enabled repositories, as at startup, and for repositories with distinct keys. For other registries only the step-by-step equality of Sync.QueueManager.InitQueues is proved.
- `InitQueues` keeps the queues rebuilt before an error, as the code does (lines 142-144, 162-164).
- Integer widths are not modelled; limits and times are unbounded integers.

=== FILE: admission.dfy ===
/**
 * The per-repository admission state ("semaphore"): an ordered waiting
 * queue of (queue key, arrival time) entries, a set of running keys and a
 * limit on how many runs should be running at a time. Every operation the
 * queue manager calls on a semaphore is a function here; the class
 * Sync.Semaphore carries the state and is proved against these functions.
 */
module Admission {

  /** A waiting pipeline run: its queue key and its arrival (creation) time. */
  datatype Entry = Entry(key: string, time: int)

  /** The state of one repository's semaphore. */
  datatype SemState = SemState(limit: int, waiting: seq<Entry>, running: set<string>)

  /** Why a run was not admitted by TryAcquire. */
  const MsgWaitingForEarlier: string := "waiting for earlier run"
  const MsgAtCapacity: string := "at capacity"

  /** The keys of the waiting queue, in queue order (`getCurrentPending`). */
  function Pending(w: seq<Entry>): (ks: seq<string>)
    ensures |ks| == |w|
    ensures forall i :: 0 <= i < |w| ==> ks[i] == w[i].key
  {
    if w == [] then [] else [w[0].key] + Pending(w[1..])
  }

  /** Lexicographic order on keys: it orders runs that arrived at the same time. */
  predicate KeyLe(a: string, b: string) {
    if a == [] then true
    else if b == [] then false
    else a[0] < b[0] || (a[0] == b[0] && KeyLe(a[1..], b[1..]))
  }

  lemma {:induction false} KeyLeTotal(a: string, b: string)
    ensures KeyLe(a, b) || KeyLe(b, a)
  {
    if a != [] && b != [] && a[0] == b[0] {
      KeyLeTotal(a[1..], b[1..]);
    }
  }

  lemma {:induction false} KeyLeAntisymmetric(a: string, b: string)
    requires KeyLe(a, b) && KeyLe(b, a)
    ensures a == b
  {
    if a != [] {
      KeyLeAntisymmetric(a[1..], b[1..]);
      assert a == [a[0]] + a[1..] && b == [b[0]] + b[1..];
    }
  }

  lemma {:induction false} KeyLeTransitive(a: string, b: string, c: string)
    requires KeyLe(a, b) && KeyLe(b, c)
    ensures KeyLe(a, c)
  {
    if a != [] && a[0] == b[0] && b[0] == c[0] {
      KeyLeTransitive(a[1..], b[1..], c[1..]);
    }
  }

  /** Queue order: `x` arrived before `y`, or at the same time with a key that sorts no later. */
  predicate NoLater(x: Entry, y: Entry) {
    x.time < y.time || (x.time == y.time && KeyLe(x.key, y.key))
  }

  /** Any two entries are ordered one way or the other, and only identical entries both ways. */
  lemma NoLaterTotal(x: Entry, y: Entry)
    ensures NoLater(x, y) || NoLater(y, x)
    ensures NoLater(x, y) && NoLater(y, x) ==> x == y
  {
    KeyLeTotal(x.key, y.key);
    if NoLater(x, y) && NoLater(y, x) {
      KeyLeAntisymmetric(x.key, y.key);
    }
  }

  lemma NoLaterTransitive(x: Entry, y: Entry, z: Entry)
    requires NoLater(x, y) && NoLater(y, z)
    ensures NoLater(x, z)
  {
    if x.time == y.time == z.time {
      KeyLeTransitive(x.key, y.key, z.key);
    }
  }

  /** The queue is in arrival order, equal arrival times in key order. */
  ghost predicate SortedByArrival(w: seq<Entry>) {
    forall i, j :: 0 <= i < j < |w| ==> NoLater(w[i], w[j])
  }

  ghost predicate DistinctKeys(w: seq<Entry>) {
    forall i, j :: 0 <= i < j < |w| ==> w[i].key != w[j].key
  }

  /**
   * The semaphore invariant: the queue is in arrival order, holds each key
   * once, and no key is both waiting and running.
   */
  ghost predicate Wf(s: SemState) {
    && SortedByArrival(s.waiting)
    && DistinctKeys(s.waiting)
    && forall k :: k in Pending(s.waiting) ==> k !in s.running
  }

  /** No more runs are running than the limit allows. */
  ghost predicate WithinLimit(s: SemState) {
    |s.running| <= s.limit
  }

  /** `newSemaphore`: a semaphore with the given limit and nothing waiting or running. */
  function NewSemaphore(limit: int): (s: SemState)
    ensures Wf(s) && s.limit == limit
    ensures Pending(s.waiting) == [] && s.running == {}
    ensures limit >= 0 ==> WithinLimit(s)
  {
    SemState(limit, [], {})
  }

  lemma PendingCons(x: Entry, w: seq<Entry>)
    ensures Pending([x] + w) == [x.key] + Pending(w)
  {
    assert ([x] + w)[1..] == w;
  }

  /** Inserts an entry in front of the first entry that does not come before it in queue order. */
  function Insert(w: seq<Entry>, e: Entry): (r: seq<Entry>)
    ensures |r| == |w| + 1
    ensures multiset(r) == multiset(w) + multiset{e}
  {
    if w == [] then [e]
    else if !NoLater(w[0], e) then [e] + w
    else
      assert w == [w[0]] + w[1..];
      [w[0]] + Insert(w[1..], e)
  }

  /** Insertion adds exactly the inserted entry and keeps every other one. */
  lemma InsertEntries(w: seq<Entry>, e: Entry)
    ensures forall x :: x in Insert(w, e) <==> x in w || x == e
  {
    forall x ensures x in Insert(w, e) <==> x in w || x == e {
      assert x in Insert(w, e) <==> x in multiset(Insert(w, e));
      assert x in w <==> x in multiset(w);
    }
  }

  /** Insertion adds exactly the inserted key to the waiting keys. */
  lemma {:induction false} InsertPending(w: seq<Entry>, e: Entry)
    ensures forall k :: k in Pending(Insert(w, e)) <==> k in Pending(w) || k == e.key
  {
    if w == [] {
    } else if !NoLater(w[0], e) {
      PendingCons(e, w);
    } else {
      var rest := Insert(w[1..], e);
      InsertPending(w[1..], e);
      PendingCons(w[0], w[1..]);
      PendingCons(w[0], rest);
      assert w == [w[0]] + w[1..];
    }
  }

  /** Insertion keeps the queue in arrival order. */
  lemma {:induction false} InsertSorted(w: seq<Entry>, e: Entry)
    requires SortedByArrival(w)
    ensures SortedByArrival(Insert(w, e))
  {
    if w == [] {
    } else if !NoLater(w[0], e) {
      NoLaterTotal(w[0], e);
      forall i | 0 <= i < |w| ensures NoLater(e, w[i]) {
        if i > 0 { NoLaterTransitive(e, w[0], w[i]); }
      }
      SortedCons(e, w);
    } else {
      var tail := w[1..];
      var rest := Insert(tail, e);
      InsertSorted(tail, e);
      forall i | 0 <= i < |rest| ensures NoLater(w[0], rest[i]) {
        assert rest[i] in multiset(rest);
        assert rest[i] in tail || rest[i] == e;
      }
      SortedCons(w[0], rest);
    }
  }

  /** The order in which two entries are inserted does not matter. */
  lemma {:induction false} InsertCommutes(w: seq<Entry>, a: Entry, b: Entry)
    ensures Insert(Insert(w, a), b) == Insert(Insert(w, b), a)
  {
    if w == [] {
      InsertSwap([], a, b);
    } else {
      var x, t := w[0], w[1..];
      assert w == [x] + t;
      NoLaterTotal(x, a);
      NoLaterTotal(x, b);
      if NoLater(x, a) && NoLater(x, b) {
        InsertCommutes(t, a, b);
        InsertBehind(x, t, a);
        InsertBehind(x, t, b);
        InsertBehind(x, Insert(t, a), b);
        InsertBehind(x, Insert(t, b), a);
      } else if NoLater(x, a) {
        InsertPassed(x, t, a, b);
      } else if NoLater(x, b) {
        InsertPassed(x, t, b, a);
      } else {
        InsertFront(x, t, a);
        InsertFront(x, t, b);
        InsertSwap(w, a, b);
      }
    }
  }

  /** `b` goes in front of `x`, `a` behind it: either order of insertion gives the same queue. */
  lemma InsertPassed(x: Entry, t: seq<Entry>, a: Entry, b: Entry)
    requires NoLater(x, a) && !NoLater(x, b)
    ensures Insert(Insert([x] + t, a), b) == Insert(Insert([x] + t, b), a)
  {
    NoLaterTotal(x, b);
    NoLaterTransitive(b, x, a);
    InsertBehind(x, t, a);
    InsertFront(x, Insert(t, a), b);
    InsertFront(x, t, b);
    InsertBehind(b, [x] + t, a);
    InsertBehind(x, t, a);
  }

  /** Two entries both going in front of the queue end up in their own order. */
  lemma InsertSwap(w: seq<Entry>, a: Entry, b: Entry)
    requires w != [] ==> !NoLater(w[0], a) && !NoLater(w[0], b)
    ensures Insert(Insert(w, a), b) == Insert(Insert(w, b), a)
  {
    NoLaterTotal(a, b);
    assert Insert(w, a) == [a] + w && Insert(w, b) == [b] + w;
    if NoLater(a, b) {
      InsertBehind(a, w, b);
      if NoLater(b, a) {
      } else {
        assert Insert([b] + w, a) == [a] + ([b] + w);
      }
    } else {
      InsertBehind(b, w, a);
      assert Insert([a] + w, b) == [b] + ([a] + w);
    }
  }

  /** Inserting behind an entry that comes no later leaves that entry in front. */
  lemma InsertBehind(x: Entry, w: seq<Entry>, e: Entry)
    requires NoLater(x, e)
    ensures Insert([x] + w, e) == [x] + Insert(w, e)
  {
    assert ([x] + w)[1..] == w;
  }

  /** Inserting an entry that comes before the front entry puts it in front. */
  lemma InsertFront(x: Entry, w: seq<Entry>, e: Entry)
    requires !NoLater(x, e)
    ensures Insert([x] + w, e) == [e] + ([x] + w)
  {
  }

  /** Putting an entry that comes no later than every waiting one in front keeps the queue order. */
  lemma SortedCons(x: Entry, w: seq<Entry>)
    requires SortedByArrival(w) && forall i :: 0 <= i < |w| ==> NoLater(x, w[i])
    ensures SortedByArrival([x] + w)
  {
    var r := [x] + w;
    forall i, j | 0 <= i < j < |r| ensures NoLater(r[i], r[j]) {
      if i == 0 {
        assert r[j] == w[j - 1];
      } else {
        assert r[i] == w[i - 1] && r[j] == w[j - 1];
      }
    }
  }

  /** Inserting a key that is not waiting keeps the keys distinct. */
  lemma {:induction false} InsertDistinct(w: seq<Entry>, e: Entry)
    requires DistinctKeys(w) && e.key !in Pending(w)
    ensures DistinctKeys(Insert(w, e))
  {
    if w == [] {
    } else if !NoLater(w[0], e) {
      DistinctCons(e, w);
    } else {
      var tail := w[1..];
      assert Pending(w) == [w[0].key] + Pending(tail) by {
        assert w == [w[0]] + tail;
        PendingCons(w[0], tail);
      }
      DistinctTail(w);
      InsertDistinct(tail, e);
      InsertPending(tail, e);
      DistinctCons(w[0], Insert(tail, e));
    }
  }

  /** Putting an entry whose key is not waiting in front of a queue keeps the keys distinct. */
  lemma DistinctCons(x: Entry, w: seq<Entry>)
    requires DistinctKeys(w) && x.key !in Pending(w)
    ensures DistinctKeys([x] + w)
  {
    var r := [x] + w;
    forall i, j | 0 <= i < j < |r| ensures r[i].key != r[j].key {
      if i == 0 {
        assert r[j] == w[j - 1] && Pending(w)[j - 1] == w[j - 1].key;
      } else {
        assert r[i] == w[i - 1] && r[j] == w[j - 1];
      }
    }
  }

  /** The keys behind the head of a queue with distinct keys are distinct and differ from the head's. */
  lemma DistinctTail(w: seq<Entry>)
    requires DistinctKeys(w) && w != []
    ensures DistinctKeys(w[1..]) && w[0].key !in Pending(w[1..])
  {
    var tail := w[1..];
    forall i | 0 <= i < |tail| ensures Pending(tail)[i] != w[0].key {
      assert Pending(tail)[i] == tail[i].key == w[i + 1].key;
    }
  }

  /** Drops the entry of a key from the queue, keeping the order of the rest. */
  function RemoveKey(w: seq<Entry>, key: string): (r: seq<Entry>)
    ensures multiset(r) <= multiset(w)
    ensures key !in Pending(w) ==> r == w
  {
    if w == [] then []
    else
      var rest := RemoveKey(w[1..], key);
      PendingCons(w[0], w[1..]);
      assert w == [w[0]] + w[1..];
      if w[0].key == key then rest else [w[0]] + rest
  }

  /** Removal takes exactly the removed key out of the waiting keys. */
  lemma {:induction false} RemoveKeyPending(w: seq<Entry>, key: string)
    ensures forall k :: k in Pending(RemoveKey(w, key)) <==> k in Pending(w) && k != key
  {
    if w != [] {
      var tail := w[1..];
      var rest := RemoveKey(tail, key);
      RemoveKeyPending(tail, key);
      PendingCons(w[0], tail);
      assert w == [w[0]] + tail;
      if w[0].key == key {
        assert RemoveKey(w, key) == rest;
      } else {
        assert RemoveKey(w, key) == [w[0]] + rest;
        PendingCons(w[0], rest);
      }
    }
  }

  /** Removal keeps exactly the entries of the other keys. */
  lemma {:induction false} RemoveKeyEntries(w: seq<Entry>, key: string)
    ensures forall e :: e in RemoveKey(w, key) <==> e in w && e.key != key
  {
    if w != [] {
      RemoveKeyEntries(w[1..], key);
      assert w == [w[0]] + w[1..];
    }
  }

  /**
   * With distinct keys, removal keeps the head of the queue unless it is the
   * removed key, in which case exactly the head is dropped.
   */
  lemma RemoveKeyHead(w: seq<Entry>, key: string)
    requires DistinctKeys(w) && w != []
    ensures w[0].key != key ==> RemoveKey(w, key) != [] && RemoveKey(w, key)[0] == w[0]
    ensures w[0].key == key ==> RemoveKey(w, key) == w[1..]
  {
    DistinctTail(w);
  }

  /** Removal keeps the queue in arrival order. */
  lemma {:induction false} RemoveKeySorted(w: seq<Entry>, key: string)
    requires SortedByArrival(w)
    ensures SortedByArrival(RemoveKey(w, key))
  {
    if w != [] {
      var tail := w[1..];
      var rest := RemoveKey(tail, key);
      assert SortedByArrival(tail);
      RemoveKeySorted(tail, key);
      if w[0].key != key {
        forall i | 0 <= i < |rest| ensures NoLater(w[0], rest[i]) {
          assert rest[i] in multiset(rest);
          assert rest[i] in tail;
        }
        SortedCons(w[0], rest);
      }
    }
  }

  /** Removal keeps the keys distinct. */
  lemma {:induction false} RemoveKeyDistinct(w: seq<Entry>, key: string)
    requires DistinctKeys(w)
    ensures DistinctKeys(RemoveKey(w, key))
  {
    if w != [] {
      var tail := w[1..];
      var rest := RemoveKey(tail, key);
      DistinctTail(w);
      RemoveKeyDistinct(tail, key);
      if w[0].key != key {
        RemoveKeyPending(tail, key);
        DistinctCons(w[0], rest);
      }
    }
  }

  /**
   * `addToQueue`: puts a run into the waiting queue by arrival time; a run
   * already waiting or running is left where it is.
   */
  function Enqueue(s: SemState, key: string, time: int): (r: SemState)
    ensures r.limit == s.limit && r.running == s.running
    ensures forall k :: k in Pending(r.waiting) <==> k in Pending(s.waiting) || (k == key && key !in s.running)
    ensures key in Pending(r.waiting) || key in r.running
    ensures key in Pending(s.waiting) || key in s.running ==> r == s
    ensures key !in Pending(s.waiting) && key !in s.running ==>
      multiset(r.waiting) == multiset(s.waiting) + multiset{Entry(key, time)}
    ensures forall e :: e in r.waiting <==> e in s.waiting || (e == Entry(key, time) && r != s)
    ensures Wf(s) ==> Wf(r)
  {
    if key in Pending(s.waiting) || key in s.running then s
    else
      var e := Entry(key, time);
      var r := s.(waiting := Insert(s.waiting, e));
      InsertPending(s.waiting, e);
      InsertEntries(s.waiting, e);
      assert Wf(s) ==> Wf(r) by {
        if Wf(s) { InsertSorted(s.waiting, e); InsertDistinct(s.waiting, e); }
      }
      r
  }

  /**
   * Enqueueing two different runs gives the same semaphore in either order:
   * the queue depends on arrival times and keys, not on call order.
   */
  lemma EnqueueCommutes(s: SemState, k1: string, t1: int, k2: string, t2: int)
    requires k1 != k2
    ensures Enqueue(Enqueue(s, k1, t1), k2, t2) == Enqueue(Enqueue(s, k2, t2), k1, t1)
  {
    if k1 !in Pending(s.waiting) && k1 !in s.running && k2 !in Pending(s.waiting) && k2 !in s.running {
      InsertCommutes(s.waiting, Entry(k1, t1), Entry(k2, t2));
    }
  }

  /** The result of `tryAcquire`: the new state, whether the run was admitted and why not. */
  datatype Acquisition = Acquisition(state: SemState, acquired: bool, msg: string)

  /** The run is at the top of the waiting queue. */
  predicate AtHead(s: SemState, key: string) {
    |s.waiting| > 0 && s.waiting[0].key == key
  }

  /**
   * `tryAcquire`: moves the run to running if it is at the top of the
   * waiting queue and fewer runs are running than the limit.
   */
  function TryAcquire(s: SemState, key: string): (a: Acquisition)
    ensures a.acquired <==> AtHead(s, key) && |s.running| < s.limit
    ensures a.acquired ==> a.msg == "" && a.state.limit == s.limit
                            && a.state.waiting == s.waiting[1..] && a.state.running == s.running + {key}
    ensures !a.acquired ==> a.state == s && a.msg != ""
    ensures !a.acquired && !AtHead(s, key) ==> a.msg == MsgWaitingForEarlier
    ensures Wf(s) ==> Wf(a.state)
    ensures Wf(s) && WithinLimit(s) ==> WithinLimit(a.state)
    ensures Wf(s) && a.acquired ==> forall i :: 0 <= i < |a.state.waiting| ==> NoLater(s.waiting[0], a.state.waiting[i])
  {
    if !AtHead(s, key) then Acquisition(s, false, MsgWaitingForEarlier)
    else if |s.running| >= s.limit then Acquisition(s, false, MsgAtCapacity)
    else
      assert s.waiting[0].key !in s.running ==> |s.running + {key}| == |s.running| + 1;
      Acquisition(s.(waiting := s.waiting[1..], running := s.running + {key}), true, "")
  }

  /** The result of `acquireLatest`: the new state and the promoted key, or "". */
  datatype Promotion = Promotion(state: SemState, next: string)

  /**
   * `acquireLatest`: when there is room, moves the top of the waiting queue
   * to running and returns its key; otherwise changes nothing and returns "".
   */
  function AcquireLatest(s: SemState): (p: Promotion)
    ensures |s.waiting| > 0 && |s.running| < s.limit ==>
              p.next == s.waiting[0].key && p.state.limit == s.limit
              && p.state.waiting == s.waiting[1..] && p.state.running == s.running + {p.next}
    ensures !(|s.waiting| > 0 && |s.running| < s.limit) ==> p == Promotion(s, "")
    ensures Wf(s) ==> Wf(p.state)
    ensures Wf(s) && WithinLimit(s) ==> WithinLimit(p.state)
  {
    if |s.waiting| > 0 && |s.running| < s.limit then
      var next := s.waiting[0].key;
      assert Wf(s) ==> |s.running + {next}| == |s.running| + 1;
      Promotion(s.(waiting := s.waiting[1..], running := s.running + {next}), next)
    else Promotion(s, "")
  }

  /**
   * `acquire`: marks a run as running whatever the limit (used to restore
   * runs that were already started); it leaves the waiting queue.
   */
  function Acquire(s: SemState, key: string): (r: SemState)
    ensures r.limit == s.limit && r.running == s.running + {key}
    ensures forall k :: k in Pending(r.waiting) <==> k in Pending(s.waiting) && k != key
    ensures forall e :: e in r.waiting <==> e in s.waiting && e.key != key
    ensures Wf(s) ==> Wf(r)
  {
    var r := s.(waiting := RemoveKey(s.waiting, key), running := s.running + {key});
    RemoveKeyPending(s.waiting, key);
    RemoveKeyEntries(s.waiting, key);
    assert Wf(s) ==> Wf(r) by {
      if Wf(s) { RemoveKeySorted(s.waiting, key); RemoveKeyDistinct(s.waiting, key); }
    }
    r
  }

  /** `release`: the run no longer counts as running; a no-op for a run that is not running. */
  function Release(s: SemState, key: string): (r: SemState)
    ensures r.limit == s.limit && r.waiting == s.waiting
    ensures r.running == s.running - {key}
    ensures key !in s.running ==> r == s
    ensures Wf(s) ==> Wf(r)
    ensures WithinLimit(s) ==> WithinLimit(r)
  {
    s.(running := s.running - {key})
  }

  /** `removeFromQueue`: the run leaves the waiting queue; a no-op for a run that is not waiting. */
  function RemoveFromQueue(s: SemState, key: string): (r: SemState)
    ensures r.limit == s.limit && r.running == s.running
    ensures forall k :: k in Pending(r.waiting) <==> k in Pending(s.waiting) && k != key
    ensures forall e :: e in r.waiting <==> e in s.waiting && e.key != key
    ensures key !in Pending(s.waiting) ==> r == s
    ensures Wf(s) ==> Wf(r)
  {
    var r := s.(waiting := RemoveKey(s.waiting, key));
    RemoveKeyPending(s.waiting, key);
    RemoveKeyEntries(s.waiting, key);
    assert Wf(s) ==> Wf(r) by {
      if Wf(s) { RemoveKeySorted(s.waiting, key); RemoveKeyDistinct(s.waiting, key); }
    }
    r
  }

  /** The result of `resize`: the new state and whether the limit was changed. */
  datatype Resized = Resized(state: SemState, ok: bool)

  /**
   * `resize`: sets a new limit unless fewer slots would remain than runs
   * already running; it never evicts a waiting or running run.
   */
  function Resize(s: SemState, limit: int): (r: Resized)
    ensures r.ok <==> |s.running| <= limit
    ensures r.state.waiting == s.waiting && r.state.running == s.running
    ensures r.state.limit == if r.ok then limit else s.limit
    ensures r.ok ==> WithinLimit(r.state)
    ensures Wf(s) ==> Wf(r.state)
  {
    if limit < |s.running| then Resized(s, false) else Resized(s.(limit := limit), true)
  }
}

=== FILE: keys.dfy ===
/**
 * Identities of the objects the queue manager works on: a Repository
 * (namespace, name and optional concurrency limit) and a PipelineRun
 * (namespace, name and creation timestamp), and the "namespace/name" keys
 * that the registry and the queues are indexed by.
 */
module Keys {
  import opened Wrappers

  /** The fields of a Repository custom resource that the queue manager reads. */
  datatype Repository = Repository(namespace: string, name: string, concurrencyLimit: Option<int>)

  /** The fields of a PipelineRun that the queue manager reads; the creation time is an integer. */
  datatype PipelineRun = PipelineRun(namespace: string, name: string, creationTimestamp: int)

  /** The rendering `namespace/name` shared by repository keys and queue keys. */
  function NamespacedKey(namespace: string, name: string): (k: string)
    ensures |k| == |namespace| + 1 + |name|
    ensures k[..|namespace|] == namespace && k[|namespace|] == '/' && k[|namespace| + 1..] == name
  {
    namespace + "/" + name
  }

  /** Splits a key at its first '/': the inverse of NamespacedKey for slash-free namespaces. */
  function SplitKey(k: string): (r: Option<(string, string)>)
    ensures r.Some? ==> '/' !in r.value.0 && NamespacedKey(r.value.0, r.value.1) == k
  {
    if k == [] then None
    else if k[0] == '/' then Some(([], k[1..]))
    else
      match SplitKey(k[1..])
      case None => None
      case Some(parts) =>
        KeyCons(k[0], parts.0, parts.1);
        assert k == [k[0]] + k[1..];
        Some(([k[0]] + parts.0, parts.1))
  }

  /** A key splits exactly when it holds a '/'. */
  lemma {:induction false} SplitKeyFindsSlash(k: string)
    ensures SplitKey(k).None? <==> '/' !in k
  {
    if k != [] && k[0] != '/' {
      SplitKeyFindsSlash(k[1..]);
      assert '/' in k <==> '/' in k[1..] by {
        assert k == [k[0]] + k[1..];
      }
    }
  }

  /** Prepending a character to the namespace prepends it to the key. */
  lemma KeyCons(c: char, namespace: string, name: string)
    ensures NamespacedKey([c] + namespace, name) == [c] + NamespacedKey(namespace, name)
  {
    assert [c] + namespace + "/" + name == [c] + (namespace + "/" + name);
  }

  /** Splitting a key built from a slash-free namespace gives back the namespace and the name. */
  lemma {:induction false} SplitJoin(namespace: string, name: string)
    requires '/' !in namespace
    ensures SplitKey(NamespacedKey(namespace, name)) == Some((namespace, name))
  {
    var k := NamespacedKey(namespace, name);
    if namespace == [] {
      assert k[0] == '/' && k[1..] == name;
    } else {
      assert k[0] == namespace[0];
      assert k[1..] == NamespacedKey(namespace[1..], name);
      SplitJoin(namespace[1..], name);
      assert [namespace[0]] + namespace[1..] == namespace;
    }
  }

  /**
   * Two objects share a key exactly when they share namespace and name,
   * provided namespaces hold no '/' (Kubernetes namespaces are DNS labels).
   */
  lemma KeyInjective(ns1: string, name1: string, ns2: string, name2: string)
    requires '/' !in ns1 && '/' !in ns2
    ensures NamespacedKey(ns1, name1) == NamespacedKey(ns2, name2) <==> ns1 == ns2 && name1 == name2
  {
    SplitJoin(ns1, name1);
    SplitJoin(ns2, name2);
  }

  /** `repoKey`: the registry key of a repository. */
  function RepoKey(repo: Repository): (k: string)
    ensures |k| == |repo.namespace| + 1 + |repo.name|
    ensures k[..|repo.namespace|] == repo.namespace && k[|repo.namespace|] == '/'
    ensures k[|repo.namespace| + 1..] == repo.name
  {
    NamespacedKey(repo.namespace, repo.name)
  }

  /** `getQueueKey`: the key of a pipeline run in its repository's queues. */
  function QueueKey(run: PipelineRun): (k: string)
    ensures |k| == |run.namespace| + 1 + |run.name|
    ensures k[..|run.namespace|] == run.namespace && k[|run.namespace|] == '/'
    ensures k[|run.namespace| + 1..] == run.name
  {
    NamespacedKey(run.namespace, run.name)
  }

  /** A repository key splits back into the repository's namespace and name. */
  lemma RepoKeySplits(repo: Repository)
    requires '/' !in repo.namespace
    ensures SplitKey(RepoKey(repo)) == Some((repo.namespace, repo.name))
  {
    SplitJoin(repo.namespace, repo.name);
  }

  /** A queue key splits back into the run's namespace and name. */
  lemma QueueKeySplits(run: PipelineRun)
    requires '/' !in run.namespace
    ensures SplitKey(QueueKey(run)) == Some((run.namespace, run.name))
  {
    SplitJoin(run.namespace, run.name);
  }

  /** Both keys have the same form: equal exactly when namespace and name are equal. */
  lemma RepoAndQueueKeysAgree(repo: Repository, run: PipelineRun)
    requires '/' !in repo.namespace && '/' !in run.namespace
    ensures RepoKey(repo) == QueueKey(run) <==> repo.namespace == run.namespace && repo.name == run.name
  {
    KeyInjective(repo.namespace, repo.name, run.namespace, run.name);
  }
}

=== FILE: recovery.dfy ===
/**
 * `InitQueues`: rebuilding the registry from what the cluster lists. The
 * cluster is an input: the list of repositories, and for each repository
 * the lists of its "queued" and "started" runs, any of which may be an error.
 */
module Recovery {
  import opened Wrappers
  import opened Keys
  import opened Admission
  import opened Registry

  /** A listed repository with the results of listing its queued and its started runs. */
  datatype RepoListing = RepoListing(repo: Repository, queued: Result<seq<PipelineRun>>, started: Result<seq<PipelineRun>>)

  /** Repositories without a limit, or with limit 0, get no queue. */
  predicate QueueingEnabled(repo: Repository) {
    repo.concurrencyLimit.Some? && repo.concurrencyLimit.value != 0
  }

  /** The queue keys of a list of runs. */
  function RunKeys(runs: seq<PipelineRun>): set<string> {
    set i | 0 <= i < |runs| :: QueueKey(runs[i])
  }

  /** The keys of a list are those of all but its last run, and the last run's. */
  lemma RunKeysSnoc(runs: seq<PipelineRun>)
    requires runs != []
    ensures RunKeys(runs) == RunKeys(runs[..|runs| - 1]) + {QueueKey(runs[|runs| - 1])}
  {
    var init := runs[..|runs| - 1];
    forall k | k in RunKeys(runs) ensures k in RunKeys(init) + {QueueKey(runs[|runs| - 1])} {
      var i :| 0 <= i < |runs| && QueueKey(runs[i]) == k;
      if i < |init| { assert init[i] == runs[i]; }
    }
    forall k | k in RunKeys(init) ensures k in RunKeys(runs) {
      var i :| 0 <= i < |init| && QueueKey(init[i]) == k;
      assert init[i] == runs[i];
    }
  }

  /** The queued-runs loop: for each run, resolve the semaphore and enqueue the run. */
  function AddQueued(m: Reg, repo: Repository, runs: seq<PipelineRun>): (o: Outcome)
    requires repo.concurrencyLimit.Some?
    ensures o.err.Some? ==> o.err == Some(ResizeError)
    ensures m.Keys <= o.reg.Keys <= m.Keys + {RepoKey(repo)}
  {
    if runs == [] then Outcome(m, None)
    else
      var o := AddQueued(m, repo, runs[..|runs| - 1]);
      if o.err.Some? then o else EnqueueRun(o.reg, repo, runs[|runs| - 1])
  }

  /** One queued run: resolve the repository's semaphore, then put the run in its waiting queue. */
  function EnqueueRun(m: Reg, repo: Repository, run: PipelineRun): (o: Outcome)
    requires repo.concurrencyLimit.Some?
    ensures o.err.Some? ==> o == Outcome(m, Some(ResizeError))
    ensures o.err.None? ==>
              o.reg.Keys == m.Keys + {RepoKey(repo)}
              && (QueueKey(run) in Pending(o.reg[RepoKey(repo)].waiting) || QueueKey(run) in o.reg[RepoKey(repo)].running)
    ensures o.err.None? && RepoKey(repo) in m ==>
              o.reg[RepoKey(repo)].running == m[RepoKey(repo)].running
              && forall k :: k in Pending(m[RepoKey(repo)].waiting) ==> k in Pending(o.reg[RepoKey(repo)].waiting)
  {
    var g := GetSemaphore(m, repo);
    if g.err.Some? then g
    else
      var key := RepoKey(repo);
      var s := Enqueue(g.reg[key], QueueKey(run), run.creationTimestamp);
      Store(g.reg, key, s);
      Outcome(g.reg[key := s], None)
  }

  /** The started-runs loop: for each run, resolve the semaphore and mark the run running. */
  function AddStarted(m: Reg, repo: Repository, runs: seq<PipelineRun>): (o: Outcome)
    requires repo.concurrencyLimit.Some?
    ensures o.err.Some? ==> o.err == Some(ResizeError)
    ensures m.Keys <= o.reg.Keys <= m.Keys + {RepoKey(repo)}
  {
    if runs == [] then Outcome(m, None)
    else
      var o := AddStarted(m, repo, runs[..|runs| - 1]);
      if o.err.Some? then o else StartRun(o.reg, repo, runs[|runs| - 1])
  }

  /** One started run: resolve the repository's semaphore, then mark the run running. */
  function StartRun(m: Reg, repo: Repository, run: PipelineRun): (o: Outcome)
    requires repo.concurrencyLimit.Some?
    ensures o.err.Some? ==> o == Outcome(m, Some(ResizeError))
    ensures o.err.None? ==>
              o.reg.Keys == m.Keys + {RepoKey(repo)} && QueueKey(run) in o.reg[RepoKey(repo)].running
    ensures o.err.None? && RepoKey(repo) in m ==> m[RepoKey(repo)].running <= o.reg[RepoKey(repo)].running
  {
    var g := GetSemaphore(m, repo);
    if g.err.Some? then g
    else
      var key := RepoKey(repo);
      var s := Acquire(g.reg[key], QueueKey(run));
      Store(g.reg, key, s);
      Outcome(g.reg[key := s], None)
  }

  /** One iteration of the loop over repositories. */
  function RebuildRepo(m: Reg, rl: RepoListing): (o: Outcome)
    ensures !QueueingEnabled(rl.repo) ==> o == Outcome(m, None)
    ensures m.Keys <= o.reg.Keys <= m.Keys + {RepoKey(rl.repo)}
    ensures o.err.Some? ==>
              || o.err == Some(ResizeError)
              || (rl.queued.Failure? && o.err == Some(rl.queued.error))
              || (rl.started.Failure? && o.err == Some(rl.started.error))
  {
    if !QueueingEnabled(rl.repo) then Outcome(m, None)
    else
      match rl.queued
      case Failure(e) => Outcome(m, Some(e))
      case Success(queued) =>
        var o := AddQueued(m, rl.repo, queued);
        if o.err.Some? then o
        else
          match rl.started
          case Failure(e) => Outcome(o.reg, Some(e))
          case Success(started) => AddStarted(o.reg, rl.repo, started)
  }

  /** The loop over repositories, stopping at the first error. */
  function RebuildRepos(m: Reg, rls: seq<RepoListing>): (o: Outcome)
    ensures m.Keys <= o.reg.Keys
    ensures (forall i :: 0 <= i < |rls| ==> !QueueingEnabled(rls[i].repo)) ==> o == Outcome(m, None)
  {
    if rls == [] then Outcome(m, None)
    else
      var o := RebuildRepos(m, rls[..|rls| - 1]);
      if o.err.Some? then o else RebuildRepo(o.reg, rls[|rls| - 1])
  }

  /** One more repository: the loop continues from where the prefix left off. */
  lemma RebuildReposSnoc(m: Reg, rls: seq<RepoListing>, i: nat)
    requires i < |rls|
    ensures var o := RebuildRepos(m, rls[..i]);
      RebuildRepos(m, rls[..i + 1]) == if o.err.Some? then o else RebuildRepo(o.reg, rls[i])
  {
    assert rls[..i + 1][..i] == rls[..i];
  }

  /** `InitQueues`: list the repositories, then rebuild each one's queue. */
  function InitQueues(m: Reg, repos: Result<seq<RepoListing>>): (o: Outcome)
    ensures repos.Failure? ==> o == Outcome(m, Some(repos.error))
    ensures m.Keys <= o.reg.Keys
  {
    match repos
    case Failure(e) => Outcome(m, Some(e))
    case Success(rls) => RebuildRepos(m, rls)
  }

  /** Every run listing of every repository with queueing enabled succeeded. */
  ghost predicate ListingsOk(rls: seq<RepoListing>) {
    forall i :: 0 <= i < |rls| && QueueingEnabled(rls[i].repo) ==> rls[i].queued.Success? && rls[i].started.Success?
  }

  /** No two repositories with queueing enabled share a key. */
  ghost predicate DistinctEnabledKeys(rls: seq<RepoListing>) {
    forall i, j :: 0 <= i < j < |rls| && QueueingEnabled(rls[i].repo) && QueueingEnabled(rls[j].repo) ==>
      RepoKey(rls[i].repo) != RepoKey(rls[j].repo)
  }

  /** The listing reports at least one queued or started run. */
  predicate HasRuns(rl: RepoListing) {
    (rl.queued.Success? && rl.queued.value != []) || (rl.started.Success? && rl.started.value != [])
  }

  /**
   * The semaphore rebuilt for a listing: its limit is the repository's, every
   * started run is running, and exactly the queued runs that are not also
   * started are waiting.
   */
  ghost predicate Restored(s: SemState, rl: RepoListing)
    requires rl.repo.concurrencyLimit.Some? && rl.queued.Success? && rl.started.Success?
  {
    && s.limit == rl.repo.concurrencyLimit.value
    && s.running == RunKeys(rl.started.value)
    && forall k :: k in Pending(s.waiting) <==> k in RunKeys(rl.queued.value) && k !in RunKeys(rl.started.value)
  }

  /** The semaphore a loop iteration starts from: the existing one, or a new one. */
  function Current(m: Reg, key: string, limit: int): SemState {
    if key in m then m[key] else NewSemaphore(limit)
  }

  /** Enqueueing each listed run in turn into one semaphore. */
  function EnqueueAll(s: SemState, runs: seq<PipelineRun>): (r: SemState)
    ensures r.limit == s.limit && r.running == s.running
  {
    if runs == [] then s
    else
      var run := runs[|runs| - 1];
      Enqueue(EnqueueAll(s, runs[..|runs| - 1]), QueueKey(run), run.creationTimestamp)
  }

  /** Marking each listed run running in turn in one semaphore. */
  function AcquireAll(s: SemState, runs: seq<PipelineRun>): (r: SemState)
    ensures r.limit == s.limit
  {
    if runs == [] then s else Acquire(AcquireAll(s, runs[..|runs| - 1]), QueueKey(runs[|runs| - 1]))
  }

  /**
   * The order in which queued runs are listed does not matter: swapping two
   * adjacent runs with different keys enqueues into the same semaphore.
   */
  lemma EnqueueAllSwap(s: SemState, xs: seq<PipelineRun>, a: PipelineRun, b: PipelineRun, ys: seq<PipelineRun>)
    requires QueueKey(a) != QueueKey(b)
    ensures EnqueueAll(s, xs + [a, b] + ys) == EnqueueAll(s, xs + [b, a] + ys)
  {
    EnqueueAllSwapLast(s, xs, a, b);
    EnqueueAllSameSuffix(s, xs + [a, b], xs + [b, a], ys);
  }

  /** Two lists of runs that enqueue into the same semaphore still do after the same runs follow. */
  lemma {:induction false} EnqueueAllSameSuffix(s: SemState, p: seq<PipelineRun>, q: seq<PipelineRun>, ys: seq<PipelineRun>)
    requires EnqueueAll(s, p) == EnqueueAll(s, q)
    ensures EnqueueAll(s, p + ys) == EnqueueAll(s, q + ys)
    decreases |ys|
  {
    if ys == [] {
      assert p + ys == p && q + ys == q;
    } else {
      var init, y := ys[..|ys| - 1], ys[|ys| - 1];
      EnqueueAllSameSuffix(s, p, q, init);
      AppendLast(p, ys);
      AppendLast(q, ys);
      EnqueueAllSnoc(s, p + init, y);
      EnqueueAllSnoc(s, q + init, y);
    }
  }

  /** Appending a non-empty list is appending all but its last element, then that element. */
  lemma AppendLast<T>(p: seq<T>, ys: seq<T>)
    requires ys != []
    ensures p + ys == (p + ys[..|ys| - 1]) + [ys[|ys| - 1]]
  {
  }

  /** Swapping the last two listed runs, when their keys differ. */
  lemma EnqueueAllSwapLast(s: SemState, xs: seq<PipelineRun>, a: PipelineRun, b: PipelineRun)
    requires QueueKey(a) != QueueKey(b)
    ensures EnqueueAll(s, xs + [a, b]) == EnqueueAll(s, xs + [b, a])
  {
    assert xs + [a, b] == (xs + [a]) + [b];
    assert xs + [b, a] == (xs + [b]) + [a];
    var s0 := EnqueueAll(s, xs);
    EnqueueAllSnoc(s, xs, a);
    EnqueueAllSnoc(s, xs, b);
    EnqueueAllSnoc(s, xs + [a], b);
    EnqueueAllSnoc(s, xs + [b], a);
    EnqueueCommutes(s0, QueueKey(a), a.creationTimestamp, QueueKey(b), b.creationTimestamp);
  }

  /** Enqueueing one more listed run. */
  lemma EnqueueAllSnoc(s: SemState, runs: seq<PipelineRun>, run: PipelineRun)
    ensures EnqueueAll(s, runs + [run]) == Enqueue(EnqueueAll(s, runs), QueueKey(run), run.creationTimestamp)
  {
    assert (runs + [run])[..|runs|] == runs;
  }

  /**
   * Enqueueing the queued runs keeps the limit, the running set and the
   * invariant, and leaves waiting exactly the runs that were waiting before
   * and the listed runs that are not running.
   */
  lemma {:induction false} EnqueueAllWaits(s: SemState, runs: seq<PipelineRun>)
    requires Wf(s)
    ensures var r := EnqueueAll(s, runs);
      && Wf(r) && r.limit == s.limit && r.running == s.running
      && forall k :: k in Pending(r.waiting) <==> k in Pending(s.waiting) || (k in RunKeys(runs) && k !in s.running)
  {
    if runs != [] {
      EnqueueAllWaits(s, runs[..|runs| - 1]);
      RunKeysSnoc(runs);
    }
  }

  /**
   * Acquiring the started runs keeps the limit and the invariant, adds every
   * listed run to the running set and takes it out of the waiting queue.
   */
  lemma {:induction false} AcquireAllRuns(s: SemState, runs: seq<PipelineRun>)
    requires Wf(s)
    ensures var r := AcquireAll(s, runs);
      && Wf(r) && r.limit == s.limit && r.running == s.running + RunKeys(runs)
      && forall k :: k in Pending(r.waiting) <==> k in Pending(s.waiting) && k !in RunKeys(runs)
  {
    if runs != [] {
      AcquireAllRuns(s, runs[..|runs| - 1]);
      RunKeysSnoc(runs);
    }
  }

  /** When the entry, if any, already has the configured limit, getSemaphore succeeds and changes at most that entry's presence. */
  lemma GetSemaphoreConfigured(m: Reg, repo: Repository)
    requires repo.concurrencyLimit.Some?
    requires RepoKey(repo) in m ==> m[RepoKey(repo)].limit == repo.concurrencyLimit.value
    ensures GetSemaphore(m, repo) == Outcome(m[RepoKey(repo) := Current(m, RepoKey(repo), repo.concurrencyLimit.value)], None)
  {
    var key := RepoKey(repo);
    if key in m {
      assert m[key := m[key]] == m;
    }
  }

  /**
   * The queued-runs loop, when the repository's entry (if any) already has
   * its configured limit, never fails, and creates or updates the entry only
   * if some run is listed.
   */
  lemma {:induction false} AddQueuedFolds(m: Reg, repo: Repository, runs: seq<PipelineRun>)
    requires repo.concurrencyLimit.Some?
    requires RepoKey(repo) in m ==> m[RepoKey(repo)].limit == repo.concurrencyLimit.value
    ensures var key, limit := RepoKey(repo), repo.concurrencyLimit.value;
      AddQueued(m, repo, runs) ==
        Outcome(if runs == [] then m else m[key := EnqueueAll(Current(m, key, limit), runs)], None)
    decreases |runs|
  {
    if runs != [] {
      var key, limit := RepoKey(repo), repo.concurrencyLimit.value;
      var init, cur := runs[..|runs| - 1], Current(m, key, limit);
      AddQueuedFolds(m, repo, init);
      var o := AddQueued(m, repo, init);
      var prev := EnqueueAll(cur, init);
      assert o.err.None? && o.reg == (if init == [] then m else m[key := prev]);
      assert Current(o.reg, key, limit) == prev;
      GetSemaphoreConfigured(o.reg, repo);
      var g := GetSemaphore(o.reg, repo);
      assert g.err.None? && g.reg == o.reg[key := prev];
      var run := runs[|runs| - 1];
      var s := Enqueue(prev, QueueKey(run), run.creationTimestamp);
      assert init == runs[..|runs| - 1];
      assert EnqueueAll(cur, runs) == s;
      assert AddQueued(m, repo, runs) == Outcome(g.reg[key := s], None);
      var base := if init == [] then m else m[key := prev];
      assert o.reg == base;
      assert g.reg == base[key := prev];
      UpdateTwice(base, key, prev, s);
      if init != [] { UpdateTwice(m, key, prev, s); }
    }
  }

  /** The started-runs loop, under the same condition. */
  lemma {:induction false} AddStartedFolds(m: Reg, repo: Repository, runs: seq<PipelineRun>)
    requires repo.concurrencyLimit.Some?
    requires RepoKey(repo) in m ==> m[RepoKey(repo)].limit == repo.concurrencyLimit.value
    ensures var key, limit := RepoKey(repo), repo.concurrencyLimit.value;
      AddStarted(m, repo, runs) ==
        Outcome(if runs == [] then m else m[key := AcquireAll(Current(m, key, limit), runs)], None)
    decreases |runs|
  {
    if runs != [] {
      var key, limit := RepoKey(repo), repo.concurrencyLimit.value;
      var init, cur := runs[..|runs| - 1], Current(m, key, limit);
      AddStartedFolds(m, repo, init);
      var o := AddStarted(m, repo, init);
      var prev := AcquireAll(cur, init);
      assert o.err.None? && o.reg == (if init == [] then m else m[key := prev]);
      assert Current(o.reg, key, limit) == prev;
      GetSemaphoreConfigured(o.reg, repo);
      var g := GetSemaphore(o.reg, repo);
      assert g.err.None? && g.reg == o.reg[key := prev];
      var s := Acquire(prev, QueueKey(runs[|runs| - 1]));
      assert init == runs[..|runs| - 1];
      assert AcquireAll(cur, runs) == s;
      assert AddStarted(m, repo, runs) == Outcome(g.reg[key := s], None);
      var base := if init == [] then m else m[key := prev];
      assert o.reg == base;
      assert g.reg == base[key := prev];
      UpdateTwice(base, key, prev, s);
      if init != [] { UpdateTwice(m, key, prev, s); }
    }
  }

  /** The semaphore a listing rebuilds from nothing: its queued runs enqueued, then its started runs acquired. */
  function Rebuilt(rl: RepoListing): SemState
    requires rl.repo.concurrencyLimit.Some? && rl.queued.Success? && rl.started.Success?
  {
    AcquireAll(EnqueueAll(NewSemaphore(rl.repo.concurrencyLimit.value), rl.queued.value), rl.started.value)
  }

  /**
   * A rebuilt semaphore keeps the semaphore invariant and holds exactly the
   * listed runs: started ones running, queued ones not started waiting.
   */
  lemma RebuiltRestores(rl: RepoListing)
    requires rl.repo.concurrencyLimit.Some? && rl.queued.Success? && rl.started.Success?
    ensures Wf(Rebuilt(rl)) && Restored(Rebuilt(rl), rl)
  {
    var s0 := NewSemaphore(rl.repo.concurrencyLimit.value);
    EnqueueAllWaits(s0, rl.queued.value);
    AcquireAllRuns(EnqueueAll(s0, rl.queued.value), rl.started.value);
  }

  /**
   * One loop iteration for an enabled repository with no entry yet and
   * successful listings: it does not fail, and it creates the entry, holding
   * the rebuilt semaphore, exactly when some run is listed.
   */
  lemma RebuildRepoFresh(m: Reg, rl: RepoListing)
    requires RegWf(m) && QueueingEnabled(rl.repo) && rl.queued.Success? && rl.started.Success?
    requires RepoKey(rl.repo) !in m
    ensures var o, key := RebuildRepo(m, rl), RepoKey(rl.repo);
      && o.err.None? && RegWf(o.reg)
      && o.reg == if HasRuns(rl) then m[key := Rebuilt(rl)] else m
  {
    var key, limit := RepoKey(rl.repo), rl.repo.concurrencyLimit.value;
    var qs, ss := rl.queued.value, rl.started.value;
    var s0 := NewSemaphore(limit);
    AddQueuedFolds(m, rl.repo, qs);
    var o1 := AddQueued(m, rl.repo, qs);
    var ea := EnqueueAll(s0, qs);
    assert o1.reg == if qs == [] then m else m[key := ea];
    assert Current(o1.reg, key, limit) == ea;
    AddStartedFolds(o1.reg, rl.repo, ss);
    RebuiltRestores(rl);
    if ss != [] {
      UpdateTwice(m, key, ea, Rebuilt(rl));
    }
    assert RegWf(RebuildRepo(m, rl).reg) by {
      var r := RebuildRepo(m, rl).reg;
      forall k | k in r ensures Wf(r[k]) {
        if k != key { assert r[k] == m[k]; }
      }
    }
  }

  /** Dropping the last listing keeps both conditions on the listings. */
  lemma ListingsOkInit(rls: seq<RepoListing>)
    requires ListingsOk(rls) && DistinctEnabledKeys(rls) && rls != []
    ensures ListingsOk(rls[..|rls| - 1]) && DistinctEnabledKeys(rls[..|rls| - 1])
  {
    var init := rls[..|rls| - 1];
    assert forall i :: 0 <= i < |init| ==> init[i] == rls[i];
  }

  /**
   * The registry `r` is what rebuilding `rls` on top of `m` should give:
   * entries of `m` untouched; each repository with queueing enabled has an
   * entry exactly when some run is listed for it, holding the rebuilt
   * semaphore; and every other new entry belongs to such a repository.
   */
  ghost predicate RebuiltFrom(m: Reg, rls: seq<RepoListing>, r: Reg)
    requires ListingsOk(rls)
  {
    RegWf(r) && KeepsEntries(m, r) && NoStrayEntries(m, rls, r) && EntriesRebuilt(rls, r)
  }

  /** Every entry of `m` is in `r`, unchanged. */
  ghost predicate KeepsEntries(m: Reg, r: Reg) {
    forall k :: k in m ==> k in r && r[k] == m[k]
  }

  /** Every entry of `r` not in `m` belongs to a listed repository with queueing enabled and runs. */
  ghost predicate NoStrayEntries(m: Reg, rls: seq<RepoListing>, r: Reg) {
    forall k :: k in r && k !in m ==>
      exists i :: 0 <= i < |rls| && QueueingEnabled(rls[i].repo) && HasRuns(rls[i]) && RepoKey(rls[i].repo) == k
  }

  /** Each listed repository with queueing enabled has an entry exactly when it has runs, holding the rebuilt semaphore. */
  ghost predicate EntriesRebuilt(rls: seq<RepoListing>, r: Reg)
    requires ListingsOk(rls)
  {
    forall i :: 0 <= i < |rls| && QueueingEnabled(rls[i].repo) ==>
      && (RepoKey(rls[i].repo) in r <==> HasRuns(rls[i]))
      && (HasRuns(rls[i]) ==> r[RepoKey(rls[i].repo)] == Rebuilt(rls[i]))
  }

  /** No repository with queueing enabled in `rls` has an entry in `m`. */
  ghost predicate FreshKeys(m: Reg, rls: seq<RepoListing>) {
    forall i :: 0 <= i < |rls| && QueueingEnabled(rls[i].repo) ==> RepoKey(rls[i].repo) !in m
  }

  /** A repository with queueing disabled leaves a rebuilt registry as it is. */
  lemma RebuiltFromSkip(m: Reg, rls: seq<RepoListing>, r: Reg)
    requires rls != [] && ListingsOk(rls) && !QueueingEnabled(rls[|rls| - 1].repo)
    requires ListingsOk(rls[..|rls| - 1]) && RebuiltFrom(m, rls[..|rls| - 1], r)
    ensures RebuiltFrom(m, rls, r)
  {
    var init := rls[..|rls| - 1];
    assert KeepsEntries(m, r);
    forall k | k in r && k !in m
      ensures exists i :: 0 <= i < |rls| && QueueingEnabled(rls[i].repo) && HasRuns(rls[i]) && RepoKey(rls[i].repo) == k
    {
      var i :| 0 <= i < |init| && QueueingEnabled(init[i].repo) && HasRuns(init[i]) && RepoKey(init[i].repo) == k;
      assert rls[i] == init[i];
    }
    forall i | 0 <= i < |rls| && QueueingEnabled(rls[i].repo)
      ensures && (RepoKey(rls[i].repo) in r <==> HasRuns(rls[i]))
              && (HasRuns(rls[i]) ==> r[RepoKey(rls[i].repo)] == Rebuilt(rls[i]))
    {
      assert i < |init| && rls[i] == init[i];
    }
  }

  /** The last repository's key is not yet in a registry rebuilt from the others. */
  lemma RebuiltFromLeavesLastFresh(m: Reg, rls: seq<RepoListing>, r: Reg)
    requires rls != [] && DistinctEnabledKeys(rls) && FreshKeys(m, rls)
    requires QueueingEnabled(rls[|rls| - 1].repo)
    requires ListingsOk(rls[..|rls| - 1]) && RebuiltFrom(m, rls[..|rls| - 1], r)
    ensures RepoKey(rls[|rls| - 1].repo) !in r
  {
    var init := rls[..|rls| - 1];
    assert forall i :: 0 <= i < |init| ==> init[i] == rls[i];
  }

  /** The entries a rebuilt registry gains all belong to listed repositories with runs. */
  lemma RebuiltFromAddNoStray(m: Reg, rls: seq<RepoListing>, r: Reg, r2: Reg)
    requires rls != [] && ListingsOk(rls) && QueueingEnabled(rls[|rls| - 1].repo)
    requires ListingsOk(rls[..|rls| - 1]) && RebuiltFrom(m, rls[..|rls| - 1], r)
    requires var last := rls[|rls| - 1];
      r2 == if HasRuns(last) then r[RepoKey(last.repo) := Rebuilt(last)] else r
    ensures NoStrayEntries(m, rls, r2)
  {
    var init, last := rls[..|rls| - 1], rls[|rls| - 1];
    forall k | k in r2 && k !in m
      ensures exists i :: 0 <= i < |rls| && QueueingEnabled(rls[i].repo) && HasRuns(rls[i]) && RepoKey(rls[i].repo) == k
    {
      if k in r {
        var i :| 0 <= i < |init| && QueueingEnabled(init[i].repo) && HasRuns(init[i]) && RepoKey(init[i].repo) == k;
        assert rls[i] == init[i];
      } else {
        assert k == RepoKey(last.repo) && HasRuns(last);
      }
    }
  }

  /** Each enabled repository's entry in the extended registry is the rebuilt one. */
  lemma RebuiltFromAddEntries(m: Reg, rls: seq<RepoListing>, r: Reg, r2: Reg)
    requires rls != [] && ListingsOk(rls) && DistinctEnabledKeys(rls)
    requires QueueingEnabled(rls[|rls| - 1].repo) && RepoKey(rls[|rls| - 1].repo) !in r
    requires ListingsOk(rls[..|rls| - 1]) && RebuiltFrom(m, rls[..|rls| - 1], r)
    requires var last := rls[|rls| - 1];
      r2 == if HasRuns(last) then r[RepoKey(last.repo) := Rebuilt(last)] else r
    ensures EntriesRebuilt(rls, r2)
  {
    var init, last := rls[..|rls| - 1], rls[|rls| - 1];
    var lkey := RepoKey(last.repo);
    forall i | 0 <= i < |rls| && QueueingEnabled(rls[i].repo)
      ensures && (RepoKey(rls[i].repo) in r2 <==> HasRuns(rls[i]))
              && (HasRuns(rls[i]) ==> r2[RepoKey(rls[i].repo)] == Rebuilt(rls[i]))
    {
      if i < |init| {
        assert rls[i] == init[i];
        assert RepoKey(rls[i].repo) != lkey;
      }
    }
  }

  /** Rebuilding an enabled repository extends a rebuilt registry by its entry. */
  lemma RebuiltFromAdd(m: Reg, rls: seq<RepoListing>, r: Reg)
    requires rls != [] && ListingsOk(rls) && DistinctEnabledKeys(rls)
    requires QueueingEnabled(rls[|rls| - 1].repo) && RepoKey(rls[|rls| - 1].repo) !in r
    requires ListingsOk(rls[..|rls| - 1]) && RebuiltFrom(m, rls[..|rls| - 1], r)
    ensures var last := rls[|rls| - 1];
      RebuiltFrom(m, rls, if HasRuns(last) then r[RepoKey(last.repo) := Rebuilt(last)] else r)
  {
    var last := rls[|rls| - 1];
    var lkey := RepoKey(last.repo);
    var r2 := if HasRuns(last) then r[lkey := Rebuilt(last)] else r;
    if HasRuns(last) {
      RebuiltRestores(last);
      RegWfUpdate(r, lkey, Rebuilt(last));
    }
    assert KeepsEntries(m, r2) by {
      assert lkey !in m;
    }
    RebuiltFromAddNoStray(m, rls, r, r2);
    RebuiltFromAddEntries(m, rls, r, r2);
  }

  /**
   * InitQueues on a registry that has no entry for any listed repository with
   * queueing enabled, when every listing succeeds and those repositories have
   * distinct keys: it does not fail, and the registry it leaves is the
   * rebuilt one (`RebuiltFrom`).
   */
  lemma {:induction false} InitQueuesRebuilds(m: Reg, rls: seq<RepoListing>)
    requires RegWf(m) && ListingsOk(rls) && DistinctEnabledKeys(rls) && FreshKeys(m, rls)
    ensures InitQueues(m, Success(rls)).err.None?
    ensures RebuiltFrom(m, rls, InitQueues(m, Success(rls)).reg)
    decreases |rls|
  {
    if rls != [] {
      var init, last := rls[..|rls| - 1], rls[|rls| - 1];
      ListingsOkInit(rls);
      assert FreshKeys(m, init) by {
        assert forall i :: 0 <= i < |init| ==> init[i] == rls[i];
      }
      InitQueuesRebuilds(m, init);
      var o := RebuildRepos(m, init);
      assert o == InitQueues(m, Success(init));
      if QueueingEnabled(last.repo) {
        RebuiltFromLeavesLastFresh(m, rls, o.reg);
        RebuildRepoFresh(o.reg, last);
        RebuiltFromAdd(m, rls, o.reg);
      } else {
        RebuiltFromSkip(m, rls, o.reg);
      }
    }
  }

  /**
   * InitQueues aborts on any listing failure: a failed repository listing is
   * returned as the error with the registry untouched, and a rebuild that
   * returns no error had every run listing of every enabled repository succeed.
   */
  lemma {:induction false} InitQueuesAborts(m: Reg, repos: Result<seq<RepoListing>>)
    ensures repos.Failure? ==> InitQueues(m, repos) == Outcome(m, Some(repos.error))
    ensures InitQueues(m, repos).err.None? ==> repos.Success? && ListingsOk(repos.value)
  {
    if repos.Success? {
      ReposSucceedOnlyIfListed(m, repos.value);
    }
  }

  /**
   * A failed run listing aborts InitQueues with that listing's own error:
   * for the first enabled repository whose queued listing fails, or whose
   * started listing fails after its queued one succeeded, when the
   * repositories before it rebuild cleanly (as in InitQueuesRebuilds).
   */
  lemma InitQueuesReportsListingError(m: Reg, rls: seq<RepoListing>, i: nat)
    requires i < |rls| && QueueingEnabled(rls[i].repo)
    requires rls[i].queued.Failure? || rls[i].started.Failure?
    requires RegWf(m) && ListingsOk(rls[..i]) && DistinctEnabledKeys(rls[..i + 1]) && FreshKeys(m, rls[..i + 1])
    ensures InitQueues(m, Success(rls)).err ==
      Some(if rls[i].queued.Failure? then rls[i].queued.error else rls[i].started.error)
  {
    var init, upto, rl := rls[..i], rls[..i + 1], rls[i];
    assert upto[..i] == init && upto[i] == rl;
    assert DistinctEnabledKeys(init) && FreshKeys(m, init) by {
      assert forall j :: 0 <= j < |init| ==> init[j] == upto[j];
    }
    InitQueuesRebuilds(m, init);
    var o := RebuildRepos(m, init);
    assert o == InitQueues(m, Success(init));
    RebuiltFromLeavesLastFresh(m, upto, o.reg);
    if rl.queued.Success? {
      AddQueuedFolds(o.reg, rl.repo, rl.queued.value);
    }
    assert RebuildRepos(m, upto) == RebuildRepo(o.reg, rl);
    RebuildReposStops(m, rls, i + 1);
  }

  lemma {:induction false} ReposSucceedOnlyIfListed(m: Reg, rls: seq<RepoListing>)
    ensures RebuildRepos(m, rls).err.None? ==> ListingsOk(rls)
    decreases |rls|
  {
    if rls != [] {
      var init := rls[..|rls| - 1];
      ReposSucceedOnlyIfListed(m, init);
      assert forall i :: 0 <= i < |init| ==> init[i] == rls[i];
    }
  }

  /** Once the queued-runs loop fails on a prefix, later runs change nothing. */
  lemma {:induction false} AddQueuedStops(m: Reg, repo: Repository, runs: seq<PipelineRun>, n: nat)
    requires repo.concurrencyLimit.Some? && n <= |runs| && AddQueued(m, repo, runs[..n]).err.Some?
    ensures AddQueued(m, repo, runs) == AddQueued(m, repo, runs[..n])
    decreases |runs|
  {
    if n < |runs| {
      var init := runs[..|runs| - 1];
      assert init[..n] == runs[..n];
      AddQueuedStops(m, repo, init, n);
    } else {
      assert runs[..n] == runs;
    }
  }

  /** Once the started-runs loop fails on a prefix, later runs change nothing. */
  lemma {:induction false} AddStartedStops(m: Reg, repo: Repository, runs: seq<PipelineRun>, n: nat)
    requires repo.concurrencyLimit.Some? && n <= |runs| && AddStarted(m, repo, runs[..n]).err.Some?
    ensures AddStarted(m, repo, runs) == AddStarted(m, repo, runs[..n])
    decreases |runs|
  {
    if n < |runs| {
      var init := runs[..|runs| - 1];
      assert init[..n] == runs[..n];
      AddStartedStops(m, repo, init, n);
    } else {
      assert runs[..n] == runs;
    }
  }

  /** Once the loop over repositories fails on a prefix, later repositories change nothing. */
  lemma {:induction false} RebuildReposStops(m: Reg, rls: seq<RepoListing>, n: nat)
    requires n <= |rls| && RebuildRepos(m, rls[..n]).err.Some?
    ensures RebuildRepos(m, rls) == RebuildRepos(m, rls[..n])
    decreases |rls|
  {
    if n < |rls| {
      var init := rls[..|rls| - 1];
      assert init[..n] == rls[..n];
      RebuildReposStops(m, init, n);
    } else {
      assert rls[..n] == rls;
    }
  }
}

=== FILE: registry.dfy ===
/**
 * The queue manager's registry as a value: a map from repository key to
 * semaphore state, and every registry operation as a function of the map
 * and its inputs. The class Sync.QueueManager is proved against these.
 */
module Registry {
  import opened Wrappers
  import opened Keys
  import opened Admission

  type Reg = map<string, SemState>

  /** Every semaphore in the registry keeps the semaphore invariant. */
  ghost predicate RegWf(m: Reg) {
    forall k :: k in m ==> Wf(m[k])
  }

  /** Storing under a key adds that key and keeps every other entry. */
  lemma Store<K, V>(m: map<K, V>, key: K, v: V)
    ensures m[key := v].Keys == m.Keys + {key}
    ensures forall k :: k in m && k != key ==> m[key := v][k] == m[k]
  {
  }

  /** Storing twice under one key keeps the second value only. */
  lemma UpdateTwice<K, V>(m: map<K, V>, key: K, a: V, b: V)
    ensures m[key := a][key := b] == m[key := b]
  {
  }

  /** Storing a valid semaphore keeps every semaphore of the registry valid. */
  lemma RegWfUpdate(m: Reg, key: string, s: SemState)
    requires RegWf(m) && Wf(s)
    ensures RegWf(m[key := s])
  {
  }

  /** The message of the error returned when a resize is refused. */
  const ResizeError: string := "failed to resize semaphore"

  /** A new registry state together with the error the operation returned, if any. */
  datatype Outcome = Outcome(reg: Reg, err: Option<string>)

  /**
   * `checkAndUpdateSemaphoreSize`: resizes a semaphore only when the
   * repository's limit differs from its current one; a refused resize is an
   * error.
   */
  function CheckAndUpdateSize(s: SemState, limit: int): (r: Resized)
    ensures r.ok <==> limit == s.limit || |s.running| <= limit
    ensures r.state == if r.ok then s.(limit := limit) else s
  {
    if limit != s.limit then Resize(s, limit) else Resized(s, true)
  }

  /**
   * `getSemaphore`: reuses the repository's semaphore (resized to the
   * configured limit if that changed) or creates an empty one with that
   * limit.
   */
  function GetSemaphore(m: Reg, repo: Repository): (o: Outcome)
    requires repo.concurrencyLimit.Some?
    ensures o.err.Some? ==> o == Outcome(m, Some(ResizeError))
    ensures o.err.None? ==> o.reg.Keys == m.Keys + {RepoKey(repo)}
                            && o.reg[RepoKey(repo)].limit == repo.concurrencyLimit.value
    ensures o.err.None? && RepoKey(repo) in m ==>
              o.reg[RepoKey(repo)].waiting == m[RepoKey(repo)].waiting
              && o.reg[RepoKey(repo)].running == m[RepoKey(repo)].running
  {
    var key, limit := RepoKey(repo), repo.concurrencyLimit.value;
    if key in m then
      var r := CheckAndUpdateSize(m[key], limit);
      if r.ok then Outcome(m[key := r.state], None) else Outcome(m, Some(ResizeError))
    else
      Outcome(m[key := NewSemaphore(limit)], None)
  }

  /**
   * getSemaphore fails exactly when a changed limit cannot be applied, and
   * then changes nothing; otherwise the repository has an entry with the
   * configured limit (a new, empty one if it had none), its runs are kept,
   * and no other entry changes.
   */
  lemma GetSemaphoreOutcome(m: Reg, repo: Repository)
    requires repo.concurrencyLimit.Some?
    ensures var key, limit, o := RepoKey(repo), repo.concurrencyLimit.value, GetSemaphore(m, repo);
      && (o.err.Some? <==> key in m && limit != m[key].limit && limit < |m[key].running|)
      && (o.err.Some? ==> o.reg == m && o.err == Some(ResizeError))
      && (o.err.None? ==> o.reg.Keys == m.Keys + {key} && o.reg[key].limit == limit)
      && (o.err.None? && key in m ==> o.reg[key].waiting == m[key].waiting && o.reg[key].running == m[key].running)
      && (key !in m ==> o.reg[key] == NewSemaphore(limit))
      && (forall k :: k in m && k != key ==> k in o.reg && o.reg[k] == m[k])
      && (RegWf(m) ==> RegWf(o.reg))
  {
  }

  /** The semaphore a successful getSemaphore leaves under the repository key. */
  function Resolved(m: Reg, repo: Repository): (s: SemState)
    requires repo.concurrencyLimit.Some?
    ensures s.limit == repo.concurrencyLimit.value
  {
    var key, limit := RepoKey(repo), repo.concurrencyLimit.value;
    if key in m then m[key].(limit := limit) else NewSemaphore(limit)
  }

  /** A successful getSemaphore stores the resolved semaphore and nothing else; it keeps the invariant. */
  lemma GetSemaphoreStores(m: Reg, repo: Repository)
    requires repo.concurrencyLimit.Some?
    ensures var g := GetSemaphore(m, repo);
      && (g.err.None? ==> g.reg == m[RepoKey(repo) := Resolved(m, repo)])
      && (g.err.Some? ==> g.reg == m)
      && (RegWf(m) ==> Wf(Resolved(m, repo)))
  {
  }

  /** What `AddToQueue` returns, with the registry it leaves. */
  datatype AddResult = AddResult(reg: Reg, acquired: bool, msg: string, err: Option<string>)

  /** `AddToQueue`: resolve the semaphore, enqueue the run, then try to admit it. */
  function AddToQueue(m: Reg, repo: Repository, run: PipelineRun): (r: AddResult)
    requires repo.concurrencyLimit.Some?
    ensures r.err.Some? ==> r == AddResult(m, false, "", Some(ResizeError))
    ensures r.err.None? ==>
              RepoKey(repo) in r.reg
              && (QueueKey(run) in Pending(r.reg[RepoKey(repo)].waiting) || QueueKey(run) in r.reg[RepoKey(repo)].running)
  {
    var g := GetSemaphore(m, repo);
    if g.err.Some? then AddResult(m, false, "", g.err)
    else
      var key, qKey := RepoKey(repo), QueueKey(run);
      var a := TryAcquire(Enqueue(g.reg[key], qKey, run.creationTimestamp), qKey);
      AddResult(g.reg[key := a.state], a.acquired, a.msg, None)
  }

  /** What `RemoveFromQueue` returns, with the registry it leaves. */
  datatype RemoveResult = RemoveResult(reg: Reg, next: string)

  /**
   * `RemoveFromQueue`: for a known repository, release the run, drop it
   * from the waiting queue and promote the top of the queue if there is room.
   */
  function RemoveFromQueue(m: Reg, repo: Repository, run: PipelineRun): (r: RemoveResult)
    ensures RepoKey(repo) !in m ==> r == RemoveResult(m, "")
    ensures r.reg.Keys == m.Keys
    ensures r.next != "" ==> RepoKey(repo) in m && r.next in r.reg[RepoKey(repo)].running
  {
    var key := RepoKey(repo);
    if key !in m then RemoveResult(m, "")
    else
      var qKey := QueueKey(run);
      var p := AcquireLatest(Admission.RemoveFromQueue(Release(m[key], qKey), qKey));
      if p.next != "" then RemoveResult(m[key := p.state], p.next)
      else RemoveResult(m[key := p.state], "")
  }

  /** `RemoveRepository`: drops the repository's entry and nothing else. */
  function RemoveRepository(m: Reg, repo: Repository): (r: Reg)
    ensures r.Keys == m.Keys - {RepoKey(repo)}
    ensures forall k :: k in r ==> r[k] == m[k]
    ensures RepoKey(repo) !in m ==> r == m
  {
    m - {RepoKey(repo)}
  }

  /** Taking the top off a queue with distinct keys removes exactly the top's key. */
  lemma PopHead(w: seq<Entry>)
    requires DistinctKeys(w) && |w| > 0
    ensures forall k :: k in Pending(w[1..]) <==> k in Pending(w) && k != w[0].key
  {
    assert w == [w[0]] + w[1..];
    PendingCons(w[0], w[1..]);
    forall i | 0 <= i < |w| - 1 ensures w[1..][i].key != w[0].key {
      assert w[1..][i] == w[i + 1];
    }
  }

  /** A refused resize makes AddToQueue fail without touching the registry. */
  lemma AddToQueueFails(m: Reg, repo: Repository, run: PipelineRun)
    requires repo.concurrencyLimit.Some?
    ensures var r, key, limit := AddToQueue(m, repo, run), RepoKey(repo), repo.concurrencyLimit.value;
      && (r.err.Some? <==> key in m && limit != m[key].limit && limit < |m[key].running|)
      && (r.err.Some? ==> r == AddResult(m, false, "", Some(ResizeError)))
  {
    GetSemaphoreOutcome(m, repo);
  }

  /**
   * Enqueueing a run and then trying to admit it, on one semaphore: the
   * invariant holds, the limit is kept, the run ends up waiting or running,
   * an admitted run is running and no longer waiting, and a run left
   * waiting gets a reason.
   */
  lemma EnqueueThenTry(s0: SemState, qKey: string, time: int)
    requires Wf(s0)
    ensures var a := TryAcquire(Enqueue(s0, qKey, time), qKey);
      && Wf(a.state) && a.state.limit == s0.limit
      && (qKey in Pending(a.state.waiting) || qKey in a.state.running)
      && (a.acquired ==> qKey in a.state.running && qKey !in Pending(a.state.waiting) && a.msg == "")
      && (!a.acquired ==> a.msg != "")
      && s0.running <= a.state.running <= s0.running + {qKey}
      && (forall e :: e in s0.waiting && e.key != qKey ==> e in a.state.waiting)
      && (forall e :: e in a.state.waiting ==> e in s0.waiting || e == Entry(qKey, time))
  {
    var s := Enqueue(s0, qKey, time);
    if AtHead(s, qKey) && |s.running| < s.limit {
      PopHead(s.waiting);
      var a := TryAcquire(s, qKey);
      forall e | e in s0.waiting && e.key != qKey ensures e in a.state.waiting {
        var i :| 0 <= i < |s.waiting| && s.waiting[i] == e;
        assert i != 0 && a.state.waiting[i - 1] == e;
      }
    }
  }

  /**
   * When AddToQueue succeeds, the run is waiting or running in its
   * repository's semaphore, which carries the configured limit; it is
   * admitted exactly when, once enqueued, it heads the queue and a slot is
   * free; an admitted run is running and no longer waiting; a run left
   * waiting gets a reason; the repository's other runs keep waiting or
   * running, and nothing else joins; no other entry changes.
   */
  lemma AddToQueueEnqueues(m: Reg, repo: Repository, run: PipelineRun)
    requires repo.concurrencyLimit.Some? && RegWf(m)
    ensures var r, key, qKey := AddToQueue(m, repo, run), RepoKey(repo), QueueKey(run);
      && RegWf(r.reg)
      && (r.err.None? ==>
            && r.reg.Keys == m.Keys + {key} && r.reg[key].limit == repo.concurrencyLimit.value
            && (qKey in Pending(r.reg[key].waiting) || qKey in r.reg[key].running)
            && (r.acquired ==> qKey in r.reg[key].running && qKey !in Pending(r.reg[key].waiting) && r.msg == "")
            && (!r.acquired ==> r.msg != "")
            && (forall k :: k in m && k != key ==> r.reg[k] == m[k]))
      && (r.err.None? ==>
            var s := Enqueue(Resolved(m, repo), qKey, run.creationTimestamp);
            r.acquired <==> AtHead(s, qKey) && |s.running| < s.limit)
      && (r.err.None? ==>
            var s0 := Resolved(m, repo);
            && s0.running <= r.reg[key].running <= s0.running + {qKey}
            && (forall e :: e in s0.waiting && e.key != qKey ==> e in r.reg[key].waiting)
            && (forall e :: e in r.reg[key].waiting ==> e in s0.waiting || e == Entry(qKey, run.creationTimestamp)))
  {
    GetSemaphoreStores(m, repo);
    var g := GetSemaphore(m, repo);
    if g.err.None? {
      var key, qKey := RepoKey(repo), QueueKey(run);
      var s0 := Resolved(m, repo);
      var a := TryAcquire(Enqueue(s0, qKey, run.creationTimestamp), qKey);
      UpdateTwice(m, key, s0, a.state);
      var r := AddToQueue(m, repo, run);
      assert r == AddResult(m[key := a.state], a.acquired, a.msg, None);
      EnqueueThenTry(s0, qKey, run.creationTimestamp);
      RegWfUpdate(m, key, a.state);
      Store(m, key, a.state);
    }
  }

  /** A run admitted by AddToQueue never pushes the repository over its limit. */
  lemma AddToQueueKeepsLimit(m: Reg, repo: Repository, run: PipelineRun)
    requires repo.concurrencyLimit.Some? && RegWf(m)
    requires RepoKey(repo) in m ==> WithinLimit(m[RepoKey(repo)])
    requires repo.concurrencyLimit.value >= 0
    ensures var r := AddToQueue(m, repo, run);
      RepoKey(repo) in r.reg ==> WithinLimit(r.reg[RepoKey(repo)])
  {
    GetSemaphoreOutcome(m, repo);
    var g := GetSemaphore(m, repo);
    var key := RepoKey(repo);
    assert key in g.reg ==> WithinLimit(g.reg[key]);
  }

  /** RemoveFromQueue for a repository without a semaphore returns "" and changes nothing. */
  lemma RemoveFromQueueUnknown(m: Reg, repo: Repository, run: PipelineRun)
    requires RepoKey(repo) !in m
    ensures RemoveFromQueue(m, repo, run) == RemoveResult(m, "")
  {
  }

  /**
   * What releasing run `qKey` from semaphore `s0` promises about the new
   * semaphore `s` and the promoted key `next` ("" when none): the run is
   * gone, every other running run keeps running, at most `next` joined the
   * running set, only the runs that were
   * waiting still wait, and `next` is taken from the top of the queue, the
   * second entry when the released run itself was on top, and only when a
   * slot was free.
   */
  ghost predicate Released(s0: SemState, qKey: string, s: SemState, next: string)
  {
    && Wf(s) && s.limit == s0.limit
    && qKey !in s.running && qKey !in Pending(s.waiting)
    && s.running <= (s0.running - {qKey}) + {next}
    && s0.running - {qKey} <= s.running
    && (forall k :: k in Pending(s.waiting) ==> k in Pending(s0.waiting) && k != qKey)
    && (forall k :: k in Pending(s0.waiting) && k != qKey && k !in s.running ==> k in Pending(s.waiting))
    && (next != "" ==> next in Pending(s0.waiting) && next in s.running
                       && |s0.running - {qKey}| < s0.limit)
    && PromotedFromTop(s0, qKey, next)
  }

  /**
   * A promoted run `next` is the top of `s0`'s waiting queue, or the second
   * entry when the released run `qKey` was on top.
   */
  ghost predicate PromotedFromTop(s0: SemState, qKey: string, next: string) {
    next != "" ==> |s0.waiting| > 0
                   && (next == s0.waiting[0].key
                       || (|s0.waiting| > 1 && s0.waiting[0].key == qKey && next == s0.waiting[1].key))
  }

  /** Promotion after a release takes the top of the queue left once the released run is removed from it. */
  lemma PromotesTop(s0: SemState, qKey: string)
    requires Wf(s0)
    ensures PromotedFromTop(s0, qKey, AcquireLatest(Admission.RemoveFromQueue(Release(s0, qKey), qKey)).next)
  {
    var s := Admission.RemoveFromQueue(Release(s0, qKey), qKey);
    if |s.waiting| > 0 && |s.running| < s.limit {
      assert s0.waiting != [];
      RemoveKeyHead(s0.waiting, qKey);
    }
  }

  /**
   * On one semaphore: releasing a run, removing it from the waiting queue and then promoting the
   * top of the queue is a release in the sense of `Released`.
   */
  lemma ReleaseThenPromote(s0: SemState, qKey: string)
    requires Wf(s0)
    ensures var p := AcquireLatest(Admission.RemoveFromQueue(Release(s0, qKey), qKey));
      Released(s0, qKey, p.state, p.next)
  {
    PromotesTop(s0, qKey);
    var s := Admission.RemoveFromQueue(Release(s0, qKey), qKey);
    assert Wf(s) && s.limit == s0.limit && s.running == s0.running - {qKey};
    assert forall k :: k in Pending(s.waiting) <==> k in Pending(s0.waiting) && k != qKey;
    var p := AcquireLatest(s);
    if |s.waiting| > 0 && |s.running| < s.limit {
      PopHead(s.waiting);
      var next := s.waiting[0].key;
      assert next in Pending(s.waiting);
      assert p.next == next && p.state.running == s.running + {next};
      assert p.state.waiting == s.waiting[1..];
    } else {
      assert p.state == s && p.next == "";
    }
  }

  /**
   * RemoveFromQueue for a known repository stores a new valid semaphore
   * under that repository's key and leaves every other semaphore alone.
   */
  lemma RemoveFromQueueFrame(m: Reg, repo: Repository, run: PipelineRun)
    requires RegWf(m) && RepoKey(repo) in m
    ensures var r, key := RemoveFromQueue(m, repo, run), RepoKey(repo);
      && RegWf(r.reg)
      && r.reg.Keys == m.Keys
      && (forall k :: k in m && k != key ==> r.reg[k] == m[k])
  {
    var key, qKey := RepoKey(repo), QueueKey(run);
    var s := AcquireLatest(Admission.RemoveFromQueue(Release(m[key], qKey), qKey)).state;
    assert Wf(s);
    RemoveFromQueueStores(m, repo, run);
    Store(m, key, s);
    RegWfUpdate(m, key, s);
  }

  /** RemoveFromQueue for a known repository stores the released semaphore under its key. */
  lemma RemoveFromQueueStores(m: Reg, repo: Repository, run: PipelineRun)
    requires RepoKey(repo) in m
    ensures var key, qKey := RepoKey(repo), QueueKey(run);
      RemoveFromQueue(m, repo, run).reg == m[key := AcquireLatest(Admission.RemoveFromQueue(Release(m[key], qKey), qKey)).state]
  {
    var key, qKey := RepoKey(repo), QueueKey(run);
    var p := AcquireLatest(Admission.RemoveFromQueue(Release(m[key], qKey), qKey));
    assert RemoveFromQueue(m, repo, run) == RemoveResult(m[key := p.state], p.next);
  }

  /**
   * RemoveFromQueue for a known repository releases the run from that
   * repository's semaphore in the sense of `Released`.
   */
  lemma RemoveFromQueueReleases(m: Reg, repo: Repository, run: PipelineRun)
    requires RegWf(m) && RepoKey(repo) in m
    ensures var r, key := RemoveFromQueue(m, repo, run), RepoKey(repo);
      Released(m[key], QueueKey(run), r.reg[key], r.next)
  {
    var key, qKey := RepoKey(repo), QueueKey(run);
    ReleaseThenPromote(m[key], qKey);
    var p := AcquireLatest(Admission.RemoveFromQueue(Release(m[key], qKey), qKey));
    var r := RemoveFromQueue(m, repo, run);
    assert r.reg[key] == p.state && r.next == p.next;
  }

  /**
   * With non-empty queue keys, "" from RemoveFromQueue means nothing was
   * promoted: either no slot was free or no other run was waiting.
   */
  lemma RemoveFromQueueNothingPromoted(m: Reg, repo: Repository, run: PipelineRun)
    requires RegWf(m) && RepoKey(repo) in m
    requires forall k :: k in Pending(m[RepoKey(repo)].waiting) ==> k != ""
    ensures var r, key, qKey := RemoveFromQueue(m, repo, run), RepoKey(repo), QueueKey(run);
      r.next == "" <==> |m[key].running - {qKey}| >= m[key].limit || forall k :: k in Pending(m[key].waiting) ==> k == qKey
  {
    var key, qKey := RepoKey(repo), QueueKey(run);
    var s := Admission.RemoveFromQueue(Release(m[key], qKey), qKey);
    var p := AcquireLatest(s);
    var r := RemoveFromQueue(m, repo, run);
    assert r.next == p.next;
    if |s.waiting| > 0 {
      assert s.waiting[0].key in Pending(s.waiting);
      assert s.waiting[0].key in Pending(m[key].waiting);
    } else {
      assert Pending(s.waiting) == [];
    }
  }
}

=== FILE: sync.dfy ===
/**
 * The queue manager as the program holds it: one mutable semaphore object
 * per repository, registered in a map under the repository key. Each class
 * method is proved to leave the state the matching function of Admission,
 * Registry or Recovery computes from the state it started in.
 */
module Sync {
  import opened Wrappers
  import opened Keys
  import opened Admission
  import opened Registry
  import opened Recovery

  /** No value is stored under two keys. */
  ghost predicate Injective<K, V>(m: map<K, V>) {
    forall k, k' :: k in m && k' in m && m[k] == m[k'] ==> k == k'
  }

  /** One repository's admission state, updated in place. */
  class Semaphore {
    var limit: int
    var waiting: seq<Entry>
    var running: set<string>

    /** The semaphore's fields as a value. */
    function State(): SemState
      reads this
    {
      SemState(limit, waiting, running)
    }

    ghost predicate Valid()
      reads this
    {
      Wf(State())
    }

    /** `newSemaphore`. */
    constructor (limit: int)
      ensures State() == NewSemaphore(limit) && Valid()
    {
      this.limit := limit;
      waiting := [];
      running := {};
    }

    /** `getLimit`. */
    method GetLimit() returns (l: int)
      ensures l == State().limit
    {
      l := limit;
    }

    /** `getCurrentPending`: the waiting keys in queue order. */
    method GetCurrentPending() returns (ks: seq<string>)
      ensures ks == Pending(State().waiting)
    {
      ks := Pending(waiting);
    }

    /** `getCurrentRunning`. */
    method GetCurrentRunning() returns (ks: set<string>)
      ensures ks == State().running
    {
      ks := running;
    }

    /** `addToQueue`. */
    method AddToQueue(key: string, time: int)
      requires Valid()
      modifies this
      ensures State() == Enqueue(old(State()), key, time) && Valid()
    {
      if key !in Pending(waiting) && key !in running {
        waiting := Insert(waiting, Entry(key, time));
      }
    }

    /** `tryAcquire`. */
    method TryAcquire(key: string) returns (acquired: bool, msg: string)
      requires Valid()
      modifies this
      ensures var a := Admission.TryAcquire(old(State()), key);
        State() == a.state && acquired == a.acquired && msg == a.msg && Valid()
    {
      if |waiting| == 0 || waiting[0].key != key {
        return false, MsgWaitingForEarlier;
      }
      if |running| >= limit {
        return false, MsgAtCapacity;
      }
      waiting := waiting[1..];
      running := running + {key};
      return true, "";
    }

    /** `acquireLatest`. */
    method AcquireLatest() returns (next: string)
      requires Valid()
      modifies this
      ensures var p := Admission.AcquireLatest(old(State()));
        State() == p.state && next == p.next && Valid()
    {
      next := "";
      if |waiting| > 0 && |running| < limit {
        next := waiting[0].key;
        waiting := waiting[1..];
        running := running + {next};
      }
    }

    /** `acquire`. */
    method Acquire(key: string)
      requires Valid()
      modifies this
      ensures State() == Admission.Acquire(old(State()), key) && Valid()
    {
      waiting := RemoveKey(waiting, key);
      running := running + {key};
    }

    /** `release`. */
    method Release(key: string)
      requires Valid()
      modifies this
      ensures State() == Admission.Release(old(State()), key) && Valid()
    {
      running := running - {key};
    }

    /** `removeFromQueue`. */
    method RemoveFromQueue(key: string)
      requires Valid()
      modifies this
      ensures State() == Admission.RemoveFromQueue(old(State()), key) && Valid()
    {
      waiting := RemoveKey(waiting, key);
    }

    /** `resize`. */
    method Resize(n: int) returns (ok: bool)
      requires Valid()
      modifies this
      ensures var r := Admission.Resize(old(State()), n);
        State() == r.state && ok == r.ok && Valid()
    {
      if n < |running| {
        return false;
      }
      limit := n;
      return true;
    }
  }

  /** The registry of semaphores, keyed by repository key. */
  class QueueManager {
    var queueMap: map<string, Semaphore>

    /** No semaphore is registered under two keys, and every semaphore keeps the semaphore invariant. */
    ghost predicate Valid()
      reads this, queueMap.Values
    {
      Injective(queueMap) && RegWf(Model())
    }

    /** The registry as a value: each key's semaphore state. */
    ghost function Model(): Reg
      reads this, queueMap.Values
    {
      map k | k in queueMap :: queueMap[k].State()
    }

    /** `NewQueueManager`: an empty registry. */
    constructor ()
      ensures Valid() && Model() == map[]
    {
      queueMap := map[];
    }

    /** Each registered semaphore of a valid manager keeps the semaphore invariant. */
    lemma SemaphoreValid(key: string)
      requires Valid() && key in queueMap
      ensures queueMap[key].Valid()
    {
      assert Model()[key] == queueMap[key].State();
    }

    /**
     * `checkAndUpdateSemaphoreSize`: applies the repository's limit to the
     * semaphore when it differs from the current one.
     */
    method CheckAndUpdateSemaphoreSize(repo: Repository, sema: Semaphore) returns (err: Option<string>)
      requires repo.concurrencyLimit.Some? && sema.Valid()
      modifies sema
      ensures var r := CheckAndUpdateSize(old(sema.State()), repo.concurrencyLimit.value);
        && sema.Valid() && sema.State() == r.state
        && err == if r.ok then None else Some(ResizeError)
    {
      var limit := repo.concurrencyLimit.value;
      var current := sema.GetLimit();
      if limit != current {
        var ok := sema.Resize(limit);
        if ok {
          return None;
        }
        return Some(ResizeError);
      }
      return None;
    }

    /**
     * `getSemaphore`: the repository's semaphore, resized if its limit
     * changed, or a new one registered under the repository key.
     */
    method GetSemaphore(repo: Repository) returns (sema: Semaphore?, err: Option<string>)
      requires Valid() && repo.concurrencyLimit.Some?
      modifies this, queueMap.Values
      ensures Valid()
      ensures var o := Registry.GetSemaphore(old(Model()), repo);
        Model() == o.reg && err == o.err
      ensures err.None? ==> RepoKey(repo) in queueMap && sema == queueMap[RepoKey(repo)]
      ensures err.Some? ==> sema == null
      ensures forall k :: k in queueMap ==> queueMap[k] in old(queueMap.Values) || fresh(queueMap[k])
    {
      var key := RepoKey(repo);
      ghost var m0 := Model();
      if key in queueMap {
        sema := queueMap[key];
        SemaphoreValid(key);
        ghost var r := CheckAndUpdateSize(m0[key], repo.concurrencyLimit.value);
        assert Registry.GetSemaphore(m0, repo) ==
          if r.ok then Outcome(m0[key := r.state], None) else Outcome(m0, Some(ResizeError));
        err := CheckAndUpdateSemaphoreSize(repo, sema);
        Untouched(m0, key, sema);
        if err.Some? {
          assert m0[key := r.state] == m0;
          sema := null;
        }
        return;
      }
      sema := new Semaphore(repo.concurrencyLimit.value);
      queueMap := queueMap[key := sema];
      err := None;
      assert Model() == m0[key := NewSemaphore(repo.concurrencyLimit.value)];
      RegWfUpdate(m0, key, sema.State());
    }

    /**
     * A registry in which one key's semaphore changed and every other key
     * still has its old state is the old registry with that key's state
     * replaced.
     */
    ghost method Untouched(m0: Reg, key: string, sema: Semaphore)
      requires RegWf(m0) && Injective(queueMap) && sema.Valid()
      requires key in queueMap && queueMap[key] == sema && queueMap.Keys == m0.Keys
      requires forall k :: k in queueMap && k != key ==> queueMap[k].State() == m0[k]
      ensures Model() == m0[key := sema.State()] && Valid()
    {
      RegWfUpdate(m0, key, sema.State());
    }

    /**
     * `AddToQueue`: enqueue the run in its repository's semaphore and try to
     * admit it.
     */
    method AddToQueue(repo: Repository, run: PipelineRun) returns (acquired: bool, msg: string, err: Option<string>)
      requires Valid() && repo.concurrencyLimit.Some?
      modifies this, queueMap.Values
      ensures Valid()
      ensures var r := Registry.AddToQueue(old(Model()), repo, run);
        Model() == r.reg && acquired == r.acquired && msg == r.msg && err == r.err
    {
      ghost var m0 := Model();
      var sema;
      sema, err := GetSemaphore(repo);
      if err.Some? {
        return false, "", err;
      }
      var key, qKey := RepoKey(repo), QueueKey(run);
      ghost var m1 := Model();
      SemaphoreValid(key);
      ghost var a := Admission.TryAcquire(Enqueue(m1[key], qKey, run.creationTimestamp), qKey);
      sema.AddToQueue(qKey, run.creationTimestamp);
      acquired, msg := sema.TryAcquire(qKey);
      Untouched(m1, key, sema);
      assert Registry.AddToQueue(m0, repo, run) == AddResult(m1[key := a.state], a.acquired, a.msg, None);
    }

    /**
     * `RemoveFromQueue`: release the run and remove it from the waiting queue, then promote the top
     * of the waiting queue if there is room; returns the promoted key or "".
     */
    method RemoveFromQueue(repo: Repository, run: PipelineRun) returns (next: string)
      requires Valid()
      modifies queueMap.Values
      ensures Valid()
      ensures var r := Registry.RemoveFromQueue(old(Model()), repo, run);
        Model() == r.reg && next == r.next
    {
      var key := RepoKey(repo);
      if key !in queueMap {
        return "";
      }
      var sema := queueMap[key];
      var qKey := QueueKey(run);
      ghost var m0 := Model();
      SemaphoreValid(key);
      sema.Release(qKey);
      sema.RemoveFromQueue(qKey);
      next := sema.AcquireLatest();
      Untouched(m0, key, sema);
    }

    /**
     * One iteration of the queued-runs loop of `InitQueues`: resolve the
     * repository's semaphore and put the run in its waiting queue.
     */
    method EnqueueRun(repo: Repository, run: PipelineRun) returns (err: Option<string>)
      requires Valid() && repo.concurrencyLimit.Some?
      modifies this, queueMap.Values
      ensures Valid()
      ensures Outcome(Model(), err) == Recovery.EnqueueRun(old(Model()), repo, run)
      ensures forall k :: k in queueMap ==> queueMap[k] in old(queueMap.Values) || fresh(queueMap[k])
    {
      ghost var m0 := Model();
      var sema;
      sema, err := GetSemaphore(repo);
      if err.Some? {
        return;
      }
      var key := RepoKey(repo);
      ghost var m1 := Model();
      SemaphoreValid(key);
      sema.AddToQueue(QueueKey(run), run.creationTimestamp);
      Untouched(m1, key, sema);
      assert Recovery.EnqueueRun(m0, repo, run) == Outcome(m1[key := sema.State()], None);
    }

    /**
     * One iteration of the started-runs loop of `InitQueues`: resolve the
     * repository's semaphore and mark the run running.
     */
    method StartRun(repo: Repository, run: PipelineRun) returns (err: Option<string>)
      requires Valid() && repo.concurrencyLimit.Some?
      modifies this, queueMap.Values
      ensures Valid()
      ensures Outcome(Model(), err) == Recovery.StartRun(old(Model()), repo, run)
      ensures forall k :: k in queueMap ==> queueMap[k] in old(queueMap.Values) || fresh(queueMap[k])
    {
      ghost var m0 := Model();
      var sema;
      sema, err := GetSemaphore(repo);
      if err.Some? {
        return;
      }
      var key := RepoKey(repo);
      ghost var m1 := Model();
      SemaphoreValid(key);
      sema.Acquire(QueueKey(run));
      Untouched(m1, key, sema);
      assert Recovery.StartRun(m0, repo, run) == Outcome(m1[key := sema.State()], None);
    }

    /**
     * The queued-runs loop of `InitQueues`: each run in turn, stopping at the
     * first error.
     */
    method AddQueuedRuns(repo: Repository, queued: seq<PipelineRun>) returns (err: Option<string>)
      requires Valid() && repo.concurrencyLimit.Some?
      modifies this, queueMap.Values
      ensures Valid()
      ensures Outcome(Model(), err) == AddQueued(old(Model()), repo, queued)
      ensures forall k :: k in queueMap ==> queueMap[k] in old(queueMap.Values) || fresh(queueMap[k])
    {
      ghost var m0 := Model();
      var j := 0;
      while j < |queued|
        invariant 0 <= j <= |queued| && Valid()
        invariant AddQueued(m0, repo, queued[..j]) == Outcome(Model(), None)
        invariant forall k :: k in queueMap ==> queueMap[k] in old(queueMap.Values) || fresh(queueMap[k])
      {
        assert queued[..j + 1][..j] == queued[..j];
        err := EnqueueRun(repo, queued[j]);
        if err.Some? {
          AddQueuedStops(m0, repo, queued, j + 1);
          return;
        }
        j := j + 1;
      }
      assert queued[..j] == queued;
      return None;
    }

    /**
     * The started-runs loop of `InitQueues`: each run in turn, stopping at
     * the first error.
     */
    method AddStartedRuns(repo: Repository, started: seq<PipelineRun>) returns (err: Option<string>)
      requires Valid() && repo.concurrencyLimit.Some?
      modifies this, queueMap.Values
      ensures Valid()
      ensures Outcome(Model(), err) == AddStarted(old(Model()), repo, started)
      ensures forall k :: k in queueMap ==> queueMap[k] in old(queueMap.Values) || fresh(queueMap[k])
    {
      ghost var m0 := Model();
      var j := 0;
      while j < |started|
        invariant 0 <= j <= |started| && Valid()
        invariant AddStarted(m0, repo, started[..j]) == Outcome(Model(), None)
        invariant forall k :: k in queueMap ==> queueMap[k] in old(queueMap.Values) || fresh(queueMap[k])
      {
        assert started[..j + 1][..j] == started[..j];
        err := StartRun(repo, started[j]);
        if err.Some? {
          AddStartedStops(m0, repo, started, j + 1);
          return;
        }
        j := j + 1;
      }
      assert started[..j] == started;
      return None;
    }

    /**
     * One iteration of the loop over repositories in `InitQueues`: skip a
     * repository without queueing, otherwise put its queued runs in the
     * waiting queue and mark its started runs running; a listing error ends
     * the iteration and is returned.
     */
    method RebuildRepo(rl: RepoListing) returns (err: Option<string>)
      requires Valid()
      modifies this, queueMap.Values
      ensures Valid()
      ensures Outcome(Model(), err) == Recovery.RebuildRepo(old(Model()), rl)
      ensures forall k :: k in queueMap ==> queueMap[k] in old(queueMap.Values) || fresh(queueMap[k])
    {
      var repo := rl.repo;
      if repo.concurrencyLimit.None? || repo.concurrencyLimit.value == 0 {
        return None;
      }
      if rl.queued.Failure? {
        return Some(rl.queued.error);
      }
      err := AddQueuedRuns(repo, rl.queued.value);
      if err.Some? {
        return;
      }
      if rl.started.Failure? {
        return Some(rl.started.error);
      }
      err := AddStartedRuns(repo, rl.started.value);
    }

    /**
     * `InitQueues`: rebuild each listed repository in turn; any listing
     * error ends the rebuild and is returned.
     */
    method InitQueues(repos: Result<seq<RepoListing>>) returns (err: Option<string>)
      requires Valid()
      modifies this, queueMap.Values
      ensures Valid()
      ensures Outcome(Model(), err) == Recovery.InitQueues(old(Model()), repos)
    {
      if repos.Failure? {
        return Some(repos.error);
      }
      var rls := repos.value;
      ghost var m0 := Model();
      var i := 0;
      while i < |rls|
        invariant 0 <= i <= |rls| && Valid()
        invariant RebuildRepos(m0, rls[..i]) == Outcome(Model(), None)
        invariant forall k :: k in queueMap ==> queueMap[k] in old(queueMap.Values) || fresh(queueMap[k])
      {
        RebuildReposSnoc(m0, rls, i);
        err := RebuildRepo(rls[i]);
        if err.Some? {
          RebuildReposStops(m0, rls, i + 1);
          return;
        }
        i := i + 1;
      }
      assert rls[..i] == rls;
      return None;
    }

    /** `RemoveRepository`: forget the repository's semaphore. */
    method RemoveRepository(repo: Repository)
      requires Valid()
      modifies this
      ensures Valid() && Model() == Registry.RemoveRepository(old(Model()), repo)
    {
      ghost var m0 := Model();
      queueMap := queueMap - {RepoKey(repo)};
      assert Model() == Registry.RemoveRepository(m0, repo);
    }

    /**
     * `QueuedPipelineRuns`: the repository's waiting keys in queue order,
     * or none for an unknown repository; no key is listed twice and none of
     * them is running.
     */
    method QueuedPipelineRuns(repo: Repository) returns (ks: seq<string>)
      requires Valid()
      ensures var key := RepoKey(repo);
        ks == if key in Model() then Pending(Model()[key].waiting) else []
      ensures forall i, j :: 0 <= i < j < |ks| ==> ks[i] != ks[j]
      ensures RepoKey(repo) in Model() ==> forall k :: k in ks ==> k !in Model()[RepoKey(repo)].running
    {
      var key := RepoKey(repo);
      if key in queueMap {
        ks := queueMap[key].GetCurrentPending();
        SemaphoreValid(key);
        return;
      }
      return [];
    }

    /**
     * `RunningPipelineRuns`: the repository's running keys, or none for an
     * unknown repository; none of them is also waiting.
     */
    method RunningPipelineRuns(repo: Repository) returns (ks: set<string>)
      requires Valid()
      ensures var key := RepoKey(repo);
        ks == if key in Model() then Model()[key].running else {}
      ensures RepoKey(repo) in Model() ==> forall k :: k in ks ==> k !in Pending(Model()[RepoKey(repo)].waiting)
    {
      var key := RepoKey(repo);
      if key in queueMap {
        ks := queueMap[key].GetCurrentRunning();
        SemaphoreValid(key);
        return;
      }
      return {};
    }
  }
}

=== FILE: wrappers.dfy ===
/** Failure-carrying values used for Go's `error` results and nil pointers. */
module Wrappers {

  /** A value that may be absent (a nil pointer, a nil error). */
  datatype Option<+T> = None | Some(value: T)

  /** The outcome of a call into the cluster: a value or an error message. */
  datatype Result<+T> = Success(value: T) | Failure(error: string)
}
